=== FILE: README.md ===
# Decision logic of the sfdx-scanner graph engine and custom rule registry, in Dafny

This project models five self-contained parts of the scanner. It proves properties of each.

- **Unused-method rule** (`UnusedMethods`, `unused_methods.dfy`).
  - Decides which candidate methods are eligible for analysis.
  - Picks a static, constructor or instance call validator for each eligible candidate.
  - Tracks eligible and unused candidates, in order.
  - Turns the unused ones into "Method X in class Y is never invoked" violations.
  - The graph searches are oracles. These are path-entry-point detection, engine directives and each validator's usage search.
- **Duplicate schema-lookup aggregation** (`AnotherPathDetection`, `another_path_detection.dfy`).
  - The path walk records occurrences in a multimap from call key to invocations.
  - That multimap becomes a set of violation records: one per key recorded more than once.
  - A sink that is not a method call is refused before anything else happens.
- **The symbolic field-set member value** (`FieldSetMembers`, `field_set_members.dfy`).
  - Case-insensitive method resolution: `getSObjectField` yields a field with an indeterminate name.
  - When no resolution rule matches, the value falls back to a synthesised value.
  - Covers the two clone operations, and `equals`/`hashCode` in 32-bit arithmetic.
- **The loop boundary marker** (`LoopBoundaries`, `loop_boundaries.dfy`).
  - An immutable wrapper around a loop vertex, compared by object identity, with a fixed string form.
- **The custom rule path registry** (`CustomRulePaths`, `custom_rule_paths.dfy`).
  - A nested map from engine to language to a set of rule-file paths.
  - Path expansion against a file-system table.
  - Engine choice: the first enabled engine whose matcher accepts the path.
  - Add, remove, query, union and per-engine lookup operations.
  - Conversion to and from the persisted JSON object.

Shared helpers:
- `wrappers.dfy`: `Option` and `Result`.
- `text.dfy`: ASCII case folding, prefix and suffix tests.
- `seqs.dfy`: order-preserving filtering, subsequences, duplicate-freedom, repetition.
- `vertices.dfy`: graph vertices as plain records.

Modelling decisions:
- Duplicate detection counts the occurrences recorded under each call key. Every key seen more than once gives one record, labelled as a call-stack repetition, as `AnotherPathViolationDetector.getViolations` does.
- Values are immutable datatypes, so a deep clone equals its original. Isolation between sibling paths holds because nothing can be mutated.
- A multiple-mass-schema-lookup record (`MultipleMassSchemaLookupInfo`, whose code is not part of this model) is a datatype value, equal to another exactly when all four fields are equal, the vertex list compared in order. The bound on the number of records and the idempotence of collecting rest on this value equality: with identity equality, the set would get one record per entry of a repeated key.
- The rule's tracker is modelled as two insertion-ordered sequences, in the order in which violations are produced.
- A loop boundary is a class with one constant field, so boundaries are compared by reference, as Java compares objects without an `equals` override.

## Model

| member | source | states |
|---|---|---|
| UnusedMethods.DirectedToSkip | sfge/src/main/java/com/salesforce/rules/UnusedMethodRule.java:204-213 | the method is skipped exactly when one of its directives both is a disable directive and matches the rule's class name |
| UnusedMethods.MethodIsIneligible | sfge/src/main/java/com/salesforce/rules/UnusedMethodRule.java:146-198 | an unsupported kind, a test, `<clinit>` in any case, a skip directive, an abstract method, a private zero-arity constructor or a property-prefixed name each make a method ineligible; a method is eligible exactly when it satisfies the independent conjunctive definition `EligibleSpec` |
| UnusedMethods.PublicInstanceMethodsIneligible | sfge/src/main/java/com/salesforce/rules/UnusedMethodRule.java:150-153 | a public or protected instance method that is not a constructor is never analysed |
| UnusedMethods.EligibleIffNotEntryPoint | sfge/src/main/java/com/salesforce/rules/UnusedMethodRule.java:194-197 | once every earlier check passes, a method is ineligible exactly when it is a path entry point |
| UnusedMethods.ChooseValidator | sfge/src/main/java/com/salesforce/rules/UnusedMethodRule.java:112-120 | the static search is chosen exactly for static methods, the constructor search exactly for non-static constructors, the instance search for everything else |
| UnusedMethods.ValidatorMatchesSupportedKinds | sfge/src/main/java/com/salesforce/rules/UnusedMethodRule.java:112-120 | among eligible methods the instance search only runs for private methods, and the constructor search only for private constructors with parameters or protected constructors |
| UnusedMethods.Visit | sfge/src/main/java/com/salesforce/rules/UnusedMethodRule.java:97-125 | one candidate extends the eligible list by itself exactly when eligible, extends the unused list exactly when it is also unused, and builds exactly one validator of the chosen kind when eligible and none otherwise |
| UnusedMethods.SeekMethodUsages | sfge/src/main/java/com/salesforce/rules/UnusedMethodRule.java:96-126 | the tracker gains exactly the eligible candidates and exactly the unused candidates, in candidate order; one validator is built per eligible candidate, each of the chosen kind |
| UnusedMethods.ConvertMethodsToViolations | sfge/src/main/java/com/salesforce/rules/UnusedMethodRule.java:128-140 | one violation per unused method, in tracker order, carrying the method and the "never invoked" message naming it and its defining type |
| UnusedMethods.Run | sfge/src/main/java/com/salesforce/rules/UnusedMethodRule.java:67-80 | a run ignores the previous tracker; its eligible and unused lists are determined by the candidates alone, the unused list is a sublist of the eligible one, and the violations correspond one to one to the unused list |
| UnusedMethods.IneligibleNeverReported | sfge/src/main/java/com/salesforce/rules/UnusedMethodRule.java:97-107 | an ineligible candidate is tracked neither as eligible nor as unused |
| UnusedMethods.ReportedIffEligibleAndUnused | sfge/src/main/java/com/salesforce/rules/UnusedMethodRule.java:121-124 | a method is tracked as unused exactly when it is a candidate, eligible, and its validator finds no usage |
| AnotherPathDetection.ShouldIgnoreMethod | sfge/src/main/java/com/salesforce/rules/multiplemassschemalookup/AnotherPathViolationDetector.java:36-43 | only method call expressions are ignored, and a method call expression is ignored exactly when it is schema-expensive |
| AnotherPathDetection.ValuesOf | sfge/src/main/java/com/salesforce/rules/multiplemassschemalookup/AnotherPathViolationDetector.java:58-63 | the invocations listed for a key are exactly those recorded under it |
| AnotherPathDetection.ValuesOfSnoc | sfge/src/main/java/com/salesforce/rules/multiplemassschemalookup/AnotherPathViolationDetector.java:58-63 | recording one more occurrence appends its invocation to its own key's list, in insertion order, and leaves every other key's list unchanged |
| AnotherPathDetection.GetViolations | sfge/src/main/java/com/salesforce/rules/multiplemassschemalookup/AnotherPathViolationDetector.java:48-79 | fails with a programming error exactly when the sink is not a method call; otherwise only the violation set changes, gaining exactly the records of the keys recorded more than once |
| AnotherPathDetection.CollectedCharacterization | sfge/src/main/java/com/salesforce/rules/multiplemassschemalookup/AnotherPathViolationDetector.java:57-70 | a record is collected exactly when a repeated key produced it; each names the detector's source and sink, is a call-stack repetition and lists more than one invocation |
| AnotherPathDetection.SingleOccurrenceYieldsNothing | sfge/src/main/java/com/salesforce/rules/multiplemassschemalookup/AnotherPathViolationDetector.java:64-76 | a key recorded exactly once yields no record |
| AnotherPathDetection.CollectedBoundedByKeys | sfge/src/main/java/com/salesforce/rules/multiplemassschemalookup/AnotherPathViolationDetector.java:57-77 | there are never more distinct records than distinct keys |
| AnotherPathDetection.CollectingAgainAddsNothing | sfge/src/main/java/com/salesforce/rules/multiplemassschemalookup/AnotherPathViolationDetector.java:65-78 | collecting again over unchanged occurrences leaves the violation set as it is |
| FieldSetMembers.ApplyMethod | sfge/src/main/java/com/salesforce/graph/symbols/apex/schema/FieldSetMember.java:94-102 | fails exactly when `getSObjectField` (any case) is called on a field set without an object type; has no rule exactly for other names; otherwise yields a field of the field set's object type whose name is an indeterminate string, both carrying the builder's provenance |
| FieldSetMembers.Apply | sfge/src/main/java/com/salesforce/graph/symbols/apex/schema/FieldSetMember.java:66-72 | a resolved value records this member and the call vertex as its provenance; a value results exactly for `getSObjectField` in any case on a field set with an object type |
| FieldSetMembers.ExecuteMethod | sfge/src/main/java/com/salesforce/graph/symbols/apex/schema/FieldSetMember.java:74-92 | for `getSObjectField` the rule's outcome is returned; for any other method the value synthesised from the declared method is returned |
| FieldSetMembers.ResolutionIgnoresCase | sfge/src/main/java/com/salesforce/graph/symbols/apex/schema/FieldSetMember.java:95 | two names equal ignoring case resolve alike |
| FieldSetMembers.UpperCaseNameResolves | sfge/src/main/java/com/salesforce/graph/symbols/apex/schema/FieldSetMember.java:95-99 | the upper-case spelling `GETSOBJECTFIELD` resolves to a value |
| FieldSetMembers.DeepCloneForReturn | sfge/src/main/java/com/salesforce/graph/symbols/apex/schema/FieldSetMember.java:51-55 | the copy keeps the field set and inherited state and takes exactly the supplied provenance |
| FieldSetMembers.DeepClone | sfge/src/main/java/com/salesforce/graph/symbols/apex/schema/FieldSetMember.java:46-49 | the copy keeps the field set, the inherited state and the provenance |
| FieldSetMembers.DeepCloneIsFaithful | sfge/src/main/java/com/salesforce/graph/symbols/apex/schema/FieldSetMember.java:34-49 | a deep clone is indistinguishable from the original |
| FieldSetMembers.CloneForReturnRoundTrip | sfge/src/main/java/com/salesforce/graph/symbols/apex/schema/FieldSetMember.java:38-55 | re-cloning with the original provenance undoes a clone for return |
| FieldSetMembers.Equals | sfge/src/main/java/com/salesforce/graph/symbols/apex/schema/FieldSetMember.java:104-111 | equal exactly to itself, or to another field set member equal at the superclass level with an equal field set; never to null or another kind of value |
| FieldSetMembers.ToInt32 | sfge/src/main/java/com/salesforce/graph/symbols/apex/schema/FieldSetMember.java:113-116 | the result is in the 32-bit signed range and congruent to the input modulo 2^32 |
| FieldSetMembers.HashCode | sfge/src/main/java/com/salesforce/graph/symbols/apex/schema/FieldSetMember.java:113-116 | the hash lies in the 32-bit signed range and is congruent to 31 · (31 + the superclass hash) + the field set's hash modulo 2^32, as `Objects.hash` computes it |
| FieldSetMembers.EqualMembersHashAlike | sfge/src/main/java/com/salesforce/graph/symbols/apex/schema/FieldSetMember.java:104-116 | equal members have equal hashes, provided the superclass hash agrees with the superclass equality |
| LoopBoundaries.NewLoopBoundary | sfge/src/main/java/com/salesforce/rules/ops/boundary/LoopBoundary.java:10-12 | the item of a new boundary is exactly the vertex it was built around |
| LoopBoundaries.NewBoundariesShareItem | sfge/src/main/java/com/salesforce/rules/ops/boundary/LoopBoundary.java:14-17 | two boundaries built separately around the same vertex are different objects, and `getBoundaryItem` hands back that vertex from each |
| LoopBoundaries.ToString | sfge/src/main/java/com/salesforce/rules/ops/boundary/LoopBoundary.java:19-22 | the text starts with `LoopBoundary{loopVertex=`, ends with `}` and has the vertex text's length plus the fixed parts |
| LoopBoundaries.ParseVertexText | sfge/src/main/java/com/salesforce/rules/ops/boundary/LoopBoundary.java:19-22 | any text it accepts is the prefix, the returned vertex text and the closing brace |
| LoopBoundaries.ToStringRoundTrip | sfge/src/main/java/com/salesforce/rules/ops/boundary/LoopBoundary.java:19-22 | the vertex text can be read back from a boundary's text |
| LoopBoundaries.ToStringDeterminedByVertex | sfge/src/main/java/com/salesforce/rules/ops/boundary/LoopBoundary.java:19-22 | two boundaries print alike exactly when their vertices print alike |
| CustomRulePaths.DetermineEngineForPath | src/lib/CustomRulePathManager.ts:217-219 | the chosen engine is the first enabled engine whose matcher accepts the path; there is none exactly when no engine accepts it |
| CustomRulePaths.RuleFilesIn | src/lib/CustomRulePathManager.ts:269-276 | the listed files are exactly the `.jar`/`.xml` entries of the directory, resolved against it |
| CustomRulePaths.RuleFilesInAppend | src/lib/CustomRulePathManager.ts:269-276 | the rule files of a listing split at any point are those of the first part followed by those of the second, so the listing order is kept |
| CustomRulePaths.RuleFilesInSingle | src/lib/CustomRulePathManager.ts:270-275 | one directory entry contributes its resolved path exactly when it ends in `.jar` or `.xml`, and nothing otherwise |
| CustomRulePaths.ExpandOne | src/lib/CustomRulePathManager.ts:253-277 | fails with an invalid-path error exactly when the path cannot be stat'ed; otherwise a file yields itself when it ends in `.jar` or `.xml` and nothing when it does not, a directory yields exactly the directory's rule-file list (one resolved path per kept entry, in listing order), and any other kind yields nothing |
| CustomRulePaths.ExpandPaths | src/lib/CustomRulePathManager.ts:250-280 | fails exactly when some argument cannot be stat'ed, naming the first such argument; otherwise yields exactly the rule files some argument stands for; order and repetition are fixed by ExpandPathsAppend, ExpandPathsSingle and ExpandOne, so a directory argument contributes its listing in order |
| CustomRulePaths.ExpandPathsAppend | src/lib/CustomRulePathManager.ts:250-280 | expanding `a + b` gives the expansion of `a` followed by that of `b`, in argument order and with every duplicate; the first failing argument decides the error |
| CustomRulePaths.ExpandPathsSingle | src/lib/CustomRulePathManager.ts:252-278 | a single argument expands to exactly what that argument stands for on its own |
| CustomRulePaths.FileArgumentKeptIffRuleFile | src/lib/CustomRulePathManager.ts:260-265 | a file argument is kept exactly when its name ends in `.jar` or `.xml` |
| CustomRulePaths.AddEntry | src/lib/CustomRulePathManager.ts:86-98 | the registry gains exactly the entry under its engine and language, creating the engine and language entries that are missing |
| CustomRulePaths.AddPathsForLanguage | src/lib/CustomRulePathManager.ts:82-102 | returns exactly the expanded entries; each is filed under its engine and the language; nothing else changes and only the needed engine and language entries are created; a failed expansion changes nothing; an entry without an engine fails with that entry; all entries before it had engines and were filed exactly as on success, and nothing after it was |
| CustomRulePaths.AddEntryExtends | src/lib/CustomRulePathManager.ts:86-99 | filing one more entry keeps the registry exactly the original plus the entries filed so far |
| CustomRulePaths.FilterRegistered | src/lib/CustomRulePathManager.ts:139-150 | on success the result is the candidates, in order and with every copy, filtered by registration under some language of their own engine; fails exactly when some candidate has no engine |
| CustomRulePaths.GetMatchingPaths | src/lib/CustomRulePathManager.ts:132-151 | a failed expansion is passed on; otherwise the result is the expanded arguments, in order and with every copy, filtered by registration under some language of their own engine |
| CustomRulePaths.AddedPathsMatch | src/lib/CustomRulePathManager.ts:132-151 | after paths are added, querying the same arguments returns all of their expanded entries |
| CustomRulePaths.RemovedPathsDoNotMatch | src/lib/CustomRulePathManager.ts:153-178 | after paths are removed, querying the same arguments returns nothing |
| CustomRulePaths.GetRulePathEntries | src/lib/CustomRulePathManager.ts:180-187 | an unknown engine gets an empty map; otherwise the result holds exactly the engine's languages and their paths |
| CustomRulePaths.UnionOfLanguages | src/lib/CustomRulePathManager.ts:122-126 | holds exactly the paths registered under some language of the engine |
| CustomRulePaths.GetAllPaths | src/lib/CustomRulePathManager.ts:116-130 | lists without duplicates exactly the paths registered under some language of an enabled engine |
| CustomRulePaths.SetToSeq | src/lib/CustomRulePathManager.ts:129 | lists each element of the set exactly once |
| CustomRulePaths.DeleteFromEveryLanguage | src/lib/CustomRulePathManager.ts:166-173 | keeps every language entry, removes the path from each, and counts exactly the languages that held it |
| CustomRulePaths.RemoveFromEngine | src/lib/CustomRulePathManager.ts:161-174 | removing one more path keeps the registry exactly the original minus the paths removed so far; the deletions counted are those of the path's first removal and none on a repeat |
| CustomRulePaths.RemovePaths | src/lib/CustomRulePathManager.ts:153-178 | only deletes, and keeps every engine and language entry; on success every expanded path is gone from every language of its engine, nothing else changed, and the result is exactly the deletion list: expanded paths in order, each repeated once per language it was deleted from at its first occurrence and absent at later repeats; a failed expansion changes nothing; an entry without an engine fails with that entry; all entries before it had engines and were removed exactly as on success, and nothing after it was |
| CustomRulePaths.DeletedListCounts | src/lib/CustomRulePathManager.ts:162-174 | the ordered deletion list holds every removed path exactly as many times as the languages it was deleted from, and nothing else |
| CustomRulePaths.ConvertJsonDataToMap | src/lib/CustomRulePathManager.ts:203-215 | keeps the engines and languages; a path is registered exactly when its array lists it |
| CustomRulePaths.LanguagesToJson | src/lib/CustomRulePathManager.ts:224-227 | each language's array lists exactly its set's paths, each once |
| CustomRulePaths.ConvertMapToJson | src/lib/CustomRulePathManager.ts:221-231 | keeps the engines and languages, lists each path once, and reading the result back gives the same registry |

## Left out

- The graph queries are oracles: candidate loading, each call validator's usage search, `PathEntryPointUtil.isPathEntryPoint`, engine directives and `MmslrUtil.isSchemaExpensiveMethod`. Their code is not part of this model.
- `ASTConstants.PROPERTY_METHOD_PREFIX` is a parameter, because its value is not part of this model.
- UnusedMethods.Run: the tracker's memoised search results are not modelled. Each validator's answer is a function of its kind and method only.
- `RuleStateTracker` is modelled as two insertion-ordered lists. Its own code is not part of this model.
- The superclass state of a field set member is opaque:
  - superclass equality and hashing are parameters;
  - the value builder is reduced to the provenance it records;
  - return-value synthesis is a parameter.
- FieldSetMembers.HashCode: the field set's own hash is a parameter, because `FieldSet.hashCode` is not part of this model.
- `ApexStandardValue`'s own resolution rules and the rest of the value variants are not modelled.
- Letter case is folded for ASCII letters only. Java's `equalsIgnoreCase` and `toLowerCase` also fold other alphabets.
- The Guava multimap is a list of key/invocation entries in insertion order. Its `keys()` view yields a key once per entry. Path walking, which fills the multimap, is not modelled.
- LoopBoundaries.ToString: a vertex's own string form is a parameter, and a null loop vertex is not modelled.
- In the rule path registry, the following are file-system and library calls and are left out:
  - the initial file read and JSON parsing;
  - saving the registry;
  - `fs.stats`, `readDir` and `path.resolve`.
- In the rule path registry, the file system is a table of stat results and directory listings. Path resolution is a parameter.
- A failure of `readDir` on a directory that stats fine is not modelled.
- Iteration order of JavaScript maps and sets is not modelled. The order of `getAllPaths` and of the persisted arrays is left open. Duplicate-freedom and contents are stated instead.
- CustomRulePaths.GetRulePathEntries: the code returns the registry's own inner map, so a caller that changes it changes the registry. The model returns a value and does not model that aliasing.
- Logging, error message texts, the environment-variable file name, the lazy singleton and the rule metadata getters are not modelled.

=== FILE: another_path_detection.dfy ===
/** The detector behind the multiple-mass-schema-lookup rule that reports an expensive schema
    call reached more than once through different call paths from one entry point. Path walking
    fills a multimap from call key to the invocations recorded for it; this module models how
    that multimap is turned into violation records. */
module AnotherPathDetection {
  import opened Wrappers
  import opened Vertices

  /** How a repeated lookup was reached: through the same loop, or through distinct call stacks. */
  datatype RepetitionType = Loop | CallStack

  /** Evidence for one violation: the entry point walked, the sink, how the repetition arose,
      and the invocations that repeat the lookup. Records are compared by value. */
  datatype LookupInfo = MultipleMassSchemaLookupInfo(
    source: Vertex,
    sink: Vertex,
    repetitionType: RepetitionType,
    repetitionVertices: seq<Vertex>)

  /** One entry of the multimap: a call key and an invocation recorded under it. */
  datatype Occurrence = Occurrence(key: string, invocation: InvocableVertex)

  /** Raised when the detector is used with a sink it does not support. */
  datatype DetectorError = ProgrammingError(sink: Vertex)

  /** The detector's state: the path entry point, the sink, the recorded occurrences in
      insertion order, and the violations collected so far. */
  datatype Detector = Detector(
    source: Vertex,
    sink: Vertex,
    occurrences: seq<Occurrence>,
    violations: set<LookupInfo>)

  /** Nested expensive schema calls are not themselves counted as repetitions; only method call
      expressions can be expensive, so every other kind of invocation is kept. */
  function ShouldIgnoreMethod(v: InvocableVertex, isSchemaExpensive: Vertex -> bool): (r: bool)
    ensures !v.MethodCallExpression? ==> !r
    ensures r ==> isSchemaExpensive(v)
    ensures v.MethodCallExpression? && isSchemaExpensive(v) ==> r
  {
    match v
    case MethodCallExpression(_, _) => isSchemaExpensive(v)
    case _ => false
  }

  /** The invocations recorded under `key`, in insertion order. */
  function ValuesOf(occ: seq<Occurrence>, key: string): (vs: seq<Vertex>)
    ensures |vs| <= |occ|
    ensures forall v :: v in vs <==> Occurrence(key, v) in occ
  {
    if |occ| == 0 then []
    else (if occ[0].key == key then [occ[0].invocation] else []) + ValuesOf(occ[1..], key)
  }

  /** Recording one more occurrence appends its invocation to the list of its own key and
      leaves every other key's list alone: the multimap keeps insertion order per key. */
  lemma {:induction false} ValuesOfSnoc(occ: seq<Occurrence>, o: Occurrence, key: string)
    ensures ValuesOf(occ + [o], key) == ValuesOf(occ, key) + (if o.key == key then [o.invocation] else [])
    decreases |occ|
  {
    if |occ| == 0 {
      assert occ + [o] == [o];
    } else {
      assert (occ + [o])[1..] == occ[1..] + [o];
      ValuesOfSnoc(occ[1..], o, key);
    }
  }

  /** The distinct keys of the multimap. */
  function KeySet(occ: seq<Occurrence>): (ks: set<string>)
    ensures forall k :: k in ks <==> exists i :: 0 <= i < |occ| && occ[i].key == k
  {
    set i | 0 <= i < |occ| :: occ[i].key
  }

  /** The record the detector builds for a key. */
  function RecordFor(d: Detector, key: string): LookupInfo
  {
    MultipleMassSchemaLookupInfo(d.source, d.sink, CallStack, ValuesOf(d.occurrences, key))
  }

  /** A key was recorded more than once. */
  predicate Repeated(d: Detector, key: string)
  {
    |ValuesOf(d.occurrences, key)| > 1
  }

  /** The records produced by the keys in `keys`. */
  function RecordsOf(d: Detector, keys: set<string>): set<LookupInfo>
  {
    set k | k in keys && Repeated(d, k) :: RecordFor(d, k)
  }

  /** Every record the occurrences call for: one per key recorded more than once. */
  function Collected(d: Detector): set<LookupInfo>
  {
    RecordsOf(d, KeySet(d.occurrences))
  }

  /** The keys of the first `n` occurrences. */
  function KeysBefore(occ: seq<Occurrence>, n: nat): set<string>
    requires n <= |occ|
  {
    if n == 0 then {} else KeysBefore(occ, n - 1) + {occ[n - 1].key}
  }

  /** The keys of the first `n` occurrences are the keys of that prefix of the multimap. */
  lemma {:induction false} KeysBeforeAll(occ: seq<Occurrence>, n: nat)
    requires n <= |occ|
    ensures KeysBefore(occ, n) == KeySet(occ[..n])
  {
    if n > 0 {
      KeysBeforeAll(occ, n - 1);
      assert occ[..n][n - 1] == occ[n - 1];
      assert forall k :: k in KeySet(occ[..n]) <==> k in KeySet(occ[..n - 1]) || k == occ[n - 1].key by {
        forall k ensures k in KeySet(occ[..n]) <==> k in KeySet(occ[..n - 1]) || k == occ[n - 1].key {
          if k in KeySet(occ[..n]) {
            var j :| 0 <= j < n && occ[..n][j].key == k;
            if j < n - 1 {
              assert occ[..n - 1][j] == occ[j];
            }
          }
          if k in KeySet(occ[..n - 1]) {
            var j :| 0 <= j < n - 1 && occ[..n - 1][j].key == k;
            assert occ[..n][j] == occ[j];
          }
        }
      }
    }
  }

  /** Visiting every occurrence visits every key of the multimap. */
  lemma KeysOfWholeMultimap(occ: seq<Occurrence>)
    ensures KeysBefore(occ, |occ|) == KeySet(occ)
  {
    KeysBeforeAll(occ, |occ|);
    assert occ[..|occ|] == occ;
  }

  /** The records collected once every occurrence has been visited. */
  lemma CollectedAfterEveryKey(d: Detector)
    ensures Collected(d) == RecordsOf(d, KeysBefore(d.occurrences, |d.occurrences|))
  {
    KeysOfWholeMultimap(d.occurrences);
  }

  /** One visit of `key`: when the key was recorded more than once, its record joins the
      violations (again, if it is already there). */
  method VisitKey(d: Detector, key: string, violations: set<LookupInfo>) returns (after: set<LookupInfo>)
    ensures after == if Repeated(d, key) then violations + {RecordFor(d, key)} else violations
  {
    var repetitionVertices := ValuesOf(d.occurrences, key);
    after := violations;
    if |repetitionVertices| > 1 {
      after := after + {MultipleMassSchemaLookupInfo(d.source, d.sink, CallStack, repetitionVertices)};
    }
  }

  /** Visiting one more key keeps the accumulated violations equal to the records of the keys
      visited so far. */
  lemma CollectStep(d: Detector, keys: set<string>, key: string, before: set<LookupInfo>, after: set<LookupInfo>)
    requires before == d.violations + RecordsOf(d, keys)
    requires after == if Repeated(d, key) then before + {RecordFor(d, key)} else before
    ensures after == d.violations + RecordsOf(d, keys + {key})
  {
  }

  /** Adds to the collected violations one record per key with more than one recorded
      occurrence. The multimap's key view yields a key once per occurrence, so a repeated key is
      visited several times; the set keeps one copy of its record. A sink that is not a method
      call is refused before anything is aggregated. */
  method GetViolations(d: Detector) returns (r: Result<Detector, DetectorError>)
    ensures !d.sink.MethodCallExpression? <==> r.Failure?
    ensures r.Failure? ==> r.error == ProgrammingError(d.sink)
    ensures r.Success? ==>
              && r.value == d.(violations := r.value.violations)
              && r.value.violations == d.violations + Collected(d)
  {
    if !d.sink.MethodCallExpression? {
      return Failure(ProgrammingError(d.sink));
    }
    var occ := d.occurrences;
    var violations := d.violations;
    var i := 0;
    while i < |occ|
      invariant i <= |occ|
      invariant violations == d.violations + RecordsOf(d, KeysBefore(occ, i))
    {
      var key := occ[i].key;
      ghost var before := violations;
      violations := VisitKey(d, key, violations);
      CollectStep(d, KeysBefore(occ, i), key, before, violations);
      i := i + 1;
    }
    CollectedAfterEveryKey(d);
    return Success(d.(violations := violations));
  }

  /** A record is collected exactly when some key recorded more than once produced it; every
      such record names the detector's source and sink, is classified as a call-stack
      repetition, and lists all occurrences of its key. */
  lemma CollectedCharacterization(d: Detector, info: LookupInfo)
    ensures info in Collected(d) <==>
              exists k :: k in KeySet(d.occurrences) && Repeated(d, k) && info == RecordFor(d, k)
    ensures info in Collected(d) ==>
              && info.source == d.source && info.sink == d.sink
              && info.repetitionType == CallStack
              && |info.repetitionVertices| > 1
  {
  }

  /** A key recorded exactly once yields no record. */
  lemma SingleOccurrenceYieldsNothing(d: Detector, key: string)
    requires |ValuesOf(d.occurrences, key)| == 1
    ensures RecordFor(d, key) !in Collected(d)
  {
  }

  /** There are never more distinct records than distinct keys. */
  lemma CollectedBoundedByKeys(d: Detector)
    ensures |Collected(d)| <= |KeySet(d.occurrences)|
  {
    RecordsBounded(d, KeySet(d.occurrences));
  }

  lemma {:induction false} RecordsBounded(d: Detector, keys: set<string>)
    ensures |RecordsOf(d, keys)| <= |keys|
    decreases |keys|
  {
    if keys != {} {
      var k :| k in keys;
      var rest := keys - {k};
      RecordsBounded(d, rest);
      assert RecordsOf(d, keys) <= RecordsOf(d, rest) + {RecordFor(d, k)};
      assert |RecordsOf(d, rest) + {RecordFor(d, k)}| <= |RecordsOf(d, rest)| + 1;
      SubsetCardinality(RecordsOf(d, keys), RecordsOf(d, rest) + {RecordFor(d, k)});
    }
  }

  lemma SubsetCardinality<T>(a: set<T>, b: set<T>)
    requires a <= b
    ensures |a| <= |b|
  {
    assert b == a + (b - a);
  }

  /** Collecting again over unchanged occurrences adds nothing new. */
  lemma CollectingAgainAddsNothing(d: Detector)
    ensures (d.violations + Collected(d)) + Collected(d.(violations := d.violations + Collected(d)))
            == d.violations + Collected(d)
  {
  }
}

=== FILE: custom_rule_paths.dfy ===
/** The registry of custom rule paths: for each rule engine and each language, the set of rule
    files (`.jar` or `.xml`) registered for it. The file system and the engines' path matching
    are given as tables and oracles; saving the registry to disk is not modelled. */
module CustomRulePaths {
  import opened Wrappers
  import opened Text
  import opened Seqs

  type Path = string
  type EngineName = string
  type Language = string

  /** The paths registered for one engine, by language. */
  type PathsByLanguage = map<Language, set<Path>>

  /** The whole registry, by engine name. */
  type RulePathMap = map<EngineName, PathsByLanguage>

  /** The registry's persisted form: an object of objects of arrays. */
  type RulePathJson = map<EngineName, map<Language, seq<Path>>>

  /** An enabled rule engine, known by its name. */
  datatype Engine = Engine(name: EngineName)

  /** What `stats` says about a path that exists. */
  datatype Stat = File | Directory(entries: seq<string>) | OtherKind

  /** The file system: the paths that can be stat'ed, and how a directory entry's name is
      resolved against its directory. */
  datatype FileSystem = FileSystem(stats: map<Path, Stat>, resolve: (Path, string) -> Path)

  /** The enabled engines in order, each engine's path matcher, and the file system. */
  datatype Env = Env(engines: seq<Engine>, matchPath: (Engine, Path) -> bool, fs: FileSystem)

  datatype PathError =
    | InvalidFilePath(path: Path)     // the path could not be stat'ed
    | NoEngineForPath(path: Path)     // no enabled engine accepts the path

  /** `p` is registered for engine `e` and language `l`. */
  predicate InMap(m: RulePathMap, e: EngineName, l: Language, p: Path)
  {
    e in m && l in m[e] && p in m[e][l]
  }

  // ---------------------------------------------------------------------------------------
  // Choosing an engine

  /** Engine number `i` is the first enabled engine that accepts `p`. */
  predicate FirstMatchAt(env: Env, p: Path, i: int)
  {
    && 0 <= i < |env.engines|
    && env.matchPath(env.engines[i], p)
    && forall j :: 0 <= j < i ==> !env.matchPath(env.engines[j], p)
  }

  function FirstMatchFrom(env: Env, p: Path, k: nat): (r: Option<Engine>)
    requires k <= |env.engines|
    requires forall j :: 0 <= j < k ==> !env.matchPath(env.engines[j], p)
    ensures r.None? <==> forall i :: k <= i < |env.engines| ==> !env.matchPath(env.engines[i], p)
    ensures r.Some? ==> exists i :: FirstMatchAt(env, p, i) && env.engines[i] == r.value
    decreases |env.engines| - k
  {
    if k == |env.engines| then None
    else if env.matchPath(env.engines[k], p) then
      assert FirstMatchAt(env, p, k);
      Some(env.engines[k])
    else FirstMatchFrom(env, p, k + 1)
  }

  /** The engine for a path: the first enabled engine whose matcher accepts it, if any. */
  function DetermineEngineForPath(env: Env, p: Path): (r: Option<Engine>)
    ensures r.None? <==> forall i :: 0 <= i < |env.engines| ==> !env.matchPath(env.engines[i], p)
    ensures r.Some? ==> exists i :: FirstMatchAt(env, p, i) && env.engines[i] == r.value
  {
    FirstMatchFrom(env, p, 0)
  }

  /** The name of the engine for a path. */
  function EngineNameFor(env: Env, p: Path): Option<EngineName>
  {
    match DetermineEngineForPath(env, p)
    case None => None
    case Some(e) => Some(e.name)
  }

  /** The engine name of every path, as a function. */
  function Owner(env: Env): Path -> Option<EngineName>
  {
    p => EngineNameFor(env, p)
  }

  /** The walk over `entries` stopped at position `n` on `path`: that is the entry found there,
      and every entry before it has an engine. */
  predicate StoppedAt(owner: Path -> Option<EngineName>, entries: seq<Path>, n: int, path: Path)
  {
    && 0 <= n < |entries|
    && entries[n] == path
    && forall j :: 0 <= j < n ==> owner(entries[j]).Some?
  }

  // ---------------------------------------------------------------------------------------
  // Expanding paths

  predicate IsRuleFile(name: string)
  {
    EndsWith(name, ".jar") || EndsWith(name, ".xml")
  }

  /** `x` is one of the rule files that the argument `p` stands for: `p` itself if it is a rule
      file, or a rule file found directly inside `p` if it is a directory. */
  predicate Contributes(fs: FileSystem, p: Path, x: Path)
  {
    p in fs.stats &&
    match fs.stats[p]
    case File => x == p && IsRuleFile(p)
    case Directory(entries) => exists c :: c in entries && IsRuleFile(c) && x == fs.resolve(p, c)
    case OtherKind => false
  }

  /** The rule files among a directory's entries, resolved against the directory. */
  function RuleFilesIn(fs: FileSystem, dir: Path, entries: seq<string>): (r: seq<Path>)
    ensures forall x :: x in r <==> exists c :: c in entries && IsRuleFile(c) && x == fs.resolve(dir, c)
  {
    if |entries| == 0 then []
    else
      var rest := RuleFilesIn(fs, dir, entries[1..]);
      assert forall c :: c in entries <==> c == entries[0] || c in entries[1..];
      if IsRuleFile(entries[0]) then [fs.resolve(dir, entries[0])] + rest else rest
  }

  /** The rule files of a listing are those of its first part followed by those of the rest:
      one resolved path per kept name, in listing order. */
  lemma {:induction false} RuleFilesInAppend(fs: FileSystem, dir: Path, a: seq<string>, b: seq<string>)
    ensures RuleFilesIn(fs, dir, a + b) == RuleFilesIn(fs, dir, a) + RuleFilesIn(fs, dir, b)
    decreases |a|
  {
    if |a| == 0 {
      assert a + b == b;
    } else {
      assert (a + b)[1..] == a[1..] + b;
      RuleFilesInAppend(fs, dir, a[1..], b);
    }
  }

  /** A single name contributes its resolved path exactly when it names a rule file. */
  lemma RuleFilesInSingle(fs: FileSystem, dir: Path, c: string)
    ensures RuleFilesIn(fs, dir, [c]) == if IsRuleFile(c) then [fs.resolve(dir, c)] else []
  {
    assert [c][1..] == [];
  }

  /** The rule files one argument stands for; directories are not searched recursively. */
  function ExpandOne(fs: FileSystem, p: Path): (r: Result<seq<Path>, PathError>)
    ensures r.Failure? <==> p !in fs.stats
    ensures r.Failure? ==> r.error == InvalidFilePath(p)
    ensures r.Success? ==> forall x :: x in r.value <==> Contributes(fs, p, x)
    ensures p in fs.stats && fs.stats[p].File? ==> r == Success(if IsRuleFile(p) then [p] else [])
    ensures p in fs.stats && fs.stats[p].Directory? ==> r == Success(RuleFilesIn(fs, p, fs.stats[p].entries))
    ensures p in fs.stats && fs.stats[p].OtherKind? ==> r == Success([])
  {
    if p !in fs.stats then Failure(InvalidFilePath(p))
    else
      match fs.stats[p]
      case File => Success(if IsRuleFile(p) then [p] else [])
      case Directory(entries) => Success(RuleFilesIn(fs, p, entries))
      case OtherKind => Success([])
  }

  function ExpandFrom(fs: FileSystem, paths: seq<Path>, k: nat): (r: Result<seq<Path>, PathError>)
    requires k <= |paths|
    ensures r.Failure? <==> exists i :: k <= i < |paths| && paths[i] !in fs.stats
    ensures r.Failure? ==> exists i :: FirstUnstatable(fs, paths, k, i) && r.error == InvalidFilePath(paths[i])
    ensures r.Success? ==> forall x :: x in r.value <==> exists i :: k <= i < |paths| && Contributes(fs, paths[i], x)
    decreases |paths| - k
  {
    if k == |paths| then Success([])
    else
      match ExpandOne(fs, paths[k])
      case Failure(e) =>
        assert FirstUnstatable(fs, paths, k, k);
        Failure(e)
      case Success(here) =>
        match ExpandFrom(fs, paths, k + 1)
        case Failure(e) => Failure(e)
        case Success(rest) => Success(here + rest)
  }

  /** `paths[i]` is the first argument from `k` on that cannot be stat'ed. */
  predicate FirstUnstatable(fs: FileSystem, paths: seq<Path>, k: nat, i: int)
  {
    && k <= i < |paths|
    && paths[i] !in fs.stats
    && forall j :: k <= j < i ==> paths[j] in fs.stats
  }

  /** The rule files the arguments stand for, in argument order. Fails on the first argument
      that cannot be stat'ed. */
  function ExpandPaths(fs: FileSystem, paths: seq<Path>): (r: Result<seq<Path>, PathError>)
    ensures r.Failure? <==> exists i :: 0 <= i < |paths| && paths[i] !in fs.stats
    ensures r.Failure? ==> exists i :: FirstUnstatable(fs, paths, 0, i) && r.error == InvalidFilePath(paths[i])
    ensures r.Success? ==> forall x :: x in r.value <==> exists i :: 0 <= i < |paths| && Contributes(fs, paths[i], x)
  {
    ExpandFrom(fs, paths, 0)
  }

  /** Expanding from `|a| + j` in `a + b` is expanding from `j` in `b`. */
  lemma {:induction false} ExpandFromShift(fs: FileSystem, a: seq<Path>, b: seq<Path>, j: nat)
    requires j <= |b|
    ensures ExpandFrom(fs, a + b, |a| + j) == ExpandFrom(fs, b, j)
    decreases |b| - j
  {
    if j < |b| {
      assert (a + b)[|a| + j] == b[j];
      ExpandFromShift(fs, a, b, j + 1);
    }
  }

  /** Two expansions one after the other: the first failure, or both lists joined. */
  function Then(x: Result<seq<Path>, PathError>, y: Result<seq<Path>, PathError>): Result<seq<Path>, PathError>
  {
    match x
    case Failure(e) => Failure(e)
    case Success(u) =>
      match y
      case Failure(e) => Failure(e)
      case Success(v) => Success(u + v)
  }

  lemma ThenAssociative(x: Result<seq<Path>, PathError>, y: Result<seq<Path>, PathError>, z: Result<seq<Path>, PathError>)
    ensures Then(x, Then(y, z)) == Then(Then(x, y), z)
  {
    if x.Success? && y.Success? && z.Success? {
      assert x.value + (y.value + z.value) == (x.value + y.value) + z.value;
    }
  }

  /** Expanding `a + b` from `k` expands `a` from `k` and then all of `b`. */
  lemma {:induction false} ExpandFromAppend(fs: FileSystem, a: seq<Path>, b: seq<Path>, k: nat)
    requires k <= |a|
    ensures ExpandFrom(fs, a + b, k) == Then(ExpandFrom(fs, a, k), ExpandPaths(fs, b))
    decreases |a| - k
  {
    if k == |a| {
      ExpandFromShift(fs, a, b, 0);
      if ExpandPaths(fs, b).Success? {
        assert [] + ExpandPaths(fs, b).value == ExpandPaths(fs, b).value;
      }
    } else {
      assert (a + b)[k] == a[k];
      ExpandFromAppend(fs, a, b, k + 1);
      ExpandFromStep(fs, a, k);
      ExpandFromStep(fs, a + b, k);
      ThenAssociative(ExpandOne(fs, a[k]), ExpandFrom(fs, a, k + 1), ExpandPaths(fs, b));
    }
  }

  /** One step of the expansion: the argument at `k`, then the rest. */
  lemma ExpandFromStep(fs: FileSystem, paths: seq<Path>, k: nat)
    requires k < |paths|
    ensures ExpandFrom(fs, paths, k) == Then(ExpandOne(fs, paths[k]), ExpandFrom(fs, paths, k + 1))
  {
  }

  /** Expanding two argument lists one after the other is expanding their concatenation: the
      result keeps argument order and every duplicate, and the first failure wins. */
  lemma ExpandPathsAppend(fs: FileSystem, a: seq<Path>, b: seq<Path>)
    ensures ExpandPaths(fs, a + b) == Then(ExpandPaths(fs, a), ExpandPaths(fs, b))
    ensures ExpandPaths(fs, a).Failure? ==> ExpandPaths(fs, a + b) == ExpandPaths(fs, a)
    ensures ExpandPaths(fs, a).Success? && ExpandPaths(fs, b).Failure? ==>
              ExpandPaths(fs, a + b) == ExpandPaths(fs, b)
    ensures ExpandPaths(fs, a).Success? && ExpandPaths(fs, b).Success? ==>
              ExpandPaths(fs, a + b) == Success(ExpandPaths(fs, a).value + ExpandPaths(fs, b).value)
  {
    ExpandFromAppend(fs, a, b, 0);
  }

  /** A single argument expands to what `ExpandOne` gives for it. */
  lemma ExpandPathsSingle(fs: FileSystem, p: Path)
    ensures ExpandPaths(fs, [p]) == ExpandOne(fs, p)
  {
    assert ExpandFrom(fs, [p], 1) == Success([]);
    if ExpandOne(fs, p).Success? {
      assert ExpandOne(fs, p).value + [] == ExpandOne(fs, p).value;
    }
  }

  /** A file argument is kept exactly when its name ends in `.jar` or `.xml`. */
  lemma FileArgumentKeptIffRuleFile(fs: FileSystem, p: Path)
    requires p in fs.stats && fs.stats[p] == File
    ensures ExpandPaths(fs, [p]) == Success(if IsRuleFile(p) then [p] else [])
  {
    var here := if IsRuleFile(p) then [p] else [];
    assert ExpandFrom(fs, [p], 1) == Success([]);
    assert here + [] == here;
  }

  // ---------------------------------------------------------------------------------------
  // Adding paths

  /** Files `entry` under engine `e` and language `language`, creating the engine's and the
      language's entries when they are missing. */
  function AddEntry(m: RulePathMap, e: EngineName, language: Language, entry: Path): (m': RulePathMap)
    ensures forall e2, l, p :: InMap(m', e2, l, p) <==> InMap(m, e2, l, p) || (e2 == e && l == language && p == entry)
    ensures m'.Keys == m.Keys + {e}
    ensures forall e2 :: e2 in m' ==>
              m'[e2].Keys == (if e2 in m then m[e2].Keys else {}) + (if e2 == e then {language} else {})
  {
    var byLanguage := if e in m then m[e] else map[];
    if language !in byLanguage then m[e := byLanguage[language := {entry}]]
    else m[e := byLanguage[language := byLanguage[language] + {entry}]]
  }

  /** Some entry in `entries` belongs to engine `e`. */
  predicate SomeEntryFor(owner: Path -> Option<EngineName>, entries: seq<Path>, e: EngineName)
  {
    exists p :: p in entries && owner(p) == Some(e)
  }

  /** The paths of `m'` are those of `m` plus every path of `entries`, filed under its engine
      and `language`. */
  ghost predicate PathsAdded(owner: Path -> Option<EngineName>, m: RulePathMap, m': RulePathMap, language: Language, entries: seq<Path>)
  {
    forall e, l, p :: InMap(m', e, l, p) <==>
      InMap(m, e, l, p) || (l == language && p in entries && owner(p) == Some(e))
  }

  /** The engines of `m'` are those of `m` plus the engines of `entries`. */
  ghost predicate EnginesAdded(owner: Path -> Option<EngineName>, m: RulePathMap, m': RulePathMap, entries: seq<Path>)
  {
    forall e :: e in m' <==> e in m || SomeEntryFor(owner, entries, e)
  }

  /** The language entries of `m'` are those of `m` plus `language` under every engine of
      `entries`. */
  ghost predicate LanguagesAdded(owner: Path -> Option<EngineName>, m: RulePathMap, m': RulePathMap, language: Language, entries: seq<Path>)
  {
    forall e :: e in m' ==>
      m'[e].Keys == (if e in m then m[e].Keys else {}) + (if SomeEntryFor(owner, entries, e) then {language} else {})
  }

  /** `m'` is `m` with every path of `entries` filed under its engine and `language`, and
      nothing else changed. */
  ghost predicate AddedExactly(owner: Path -> Option<EngineName>, m: RulePathMap, m': RulePathMap, language: Language, entries: seq<Path>)
  {
    && PathsAdded(owner, m, m', language, entries)
    && EnginesAdded(owner, m, m', entries)
    && LanguagesAdded(owner, m, m', language, entries)
  }

  /** Expands the arguments and files every resulting rule file under its engine and the given
      language; returns the expanded entries. When the expansion fails nothing changes. When some
      entry has no engine, the entries before it have already been filed. */
  method AddPathsForLanguage(env: Env, m: RulePathMap, language: Language, paths: seq<Path>)
    returns (m': RulePathMap, r: Result<seq<Path>, PathError>)
    ensures ExpandPaths(env.fs, paths).Failure? ==>
              m' == m && r == Failure(ExpandPaths(env.fs, paths).error)
    ensures r.Success? ==>
              && r.value == ExpandPaths(env.fs, paths).value
              && (forall x :: x in r.value ==> EngineNameFor(env, x).Some?)
              && (forall x :: x in r.value ==> InMap(m', EngineNameFor(env, x).value, language, x))
              && AddedExactly(Owner(env), m, m', language, r.value)
    ensures r.Failure? && ExpandPaths(env.fs, paths).Success? ==>
              && r.error.NoEngineForPath?
              && r.error.path in ExpandPaths(env.fs, paths).value
              && EngineNameFor(env, r.error.path).None?
              && exists n ::
                   && StoppedAt(Owner(env), ExpandPaths(env.fs, paths).value, n, r.error.path)
                   && AddedExactly(Owner(env), m, m', language, ExpandPaths(env.fs, paths).value[..n])
  {
    var expanded := ExpandPaths(env.fs, paths);
    if expanded.Failure? {
      return m, Failure(expanded.error);
    }
    m', r := FileEntries(env, m, language, expanded.value);
  }

  /** Files each entry in turn under its engine and `language`, stopping at the first entry
      without an engine. */
  method FileEntries(env: Env, m: RulePathMap, language: Language, entries: seq<Path>)
    returns (m': RulePathMap, r: Result<seq<Path>, PathError>)
    ensures r.Success? ==>
              && r.value == entries
              && (forall x :: x in entries ==> EngineNameFor(env, x).Some?)
              && (forall x :: x in entries ==> InMap(m', EngineNameFor(env, x).value, language, x))
              && AddedExactly(Owner(env), m, m', language, entries)
    ensures r.Failure? ==>
              && r.error.NoEngineForPath?
              && r.error.path in entries
              && EngineNameFor(env, r.error.path).None?
              && exists n :: StoppedAt(Owner(env), entries, n, r.error.path) && AddedExactly(Owner(env), m, m', language, entries[..n])
  {
    m' := m;
    var i := 0;
    while i < |entries|
      invariant i <= |entries|
      invariant forall x :: x in entries[..i] ==> Owner(env)(x).Some?
      invariant AddedExactly(Owner(env), m, m', language, entries[..i])
    {
      var entry := entries[i];
      var engine := DetermineEngineForPath(env, entry);
      if engine.None? {
        assert EngineNameFor(env, entry).None?;
        AddStoppedAt(Owner(env), m, m', language, entries, i);
        return m', Failure(NoEngineForPath(entry));
      }
      assert entries[..i + 1] == entries[..i] + [entry];
      AddEntryExtends(Owner(env), m, m', language, entries[..i], entry, engine.value.name);
      m' := AddEntry(m', engine.value.name, language, entry);
      i := i + 1;
    }
    assert entries[..i] == entries;
    FiledEntriesPresent(Owner(env), m, m', language, entries);
    r := Success(entries);
  }

  lemma FiledEntriesPresent(owner: Path -> Option<EngineName>, m: RulePathMap, m': RulePathMap, language: Language, entries: seq<Path>)
    requires PathsAdded(owner, m, m', language, entries)
    requires forall x :: x in entries ==> owner(x).Some?
    ensures forall x :: x in entries ==> InMap(m', owner(x).value, language, x)
  {
  }

  /** An add that meets entry `i` without an engine stops there, with the entries before it filed. */
  lemma AddStoppedAt(owner: Path -> Option<EngineName>, m: RulePathMap, m': RulePathMap, language: Language, entries: seq<Path>, i: int)
    requires 0 <= i < |entries|
    requires forall x :: x in entries[..i] ==> owner(x).Some?
    requires AddedExactly(owner, m, m', language, entries[..i])
    ensures exists n :: StoppedAt(owner, entries, n, entries[i]) && AddedExactly(owner, m, m', language, entries[..n])
  {
    assert forall j :: 0 <= j < i ==> entries[j] in entries[..i];
  }

  lemma SomeEntrySnoc(owner: Path -> Option<EngineName>, done: seq<Path>, entry: Path, e: EngineName)
    ensures SomeEntryFor(owner, done + [entry], e) <==> SomeEntryFor(owner, done, e) || owner(entry) == Some(e)
  {
    if SomeEntryFor(owner, done + [entry], e) {
      var x :| x in done + [entry] && owner(x) == Some(e);
      if x != entry {
        assert x in done;
      }
    }
    if owner(entry) == Some(e) {
      assert entry in done + [entry];
    }
    if SomeEntryFor(owner, done, e) {
      var x :| x in done && owner(x) == Some(e);
      assert x in done + [entry];
    }
  }

  /** Filing one more entry under its engine keeps the registry exactly the original plus the
      entries filed so far. */
  lemma AddEntryExtends(owner: Path -> Option<EngineName>, m: RulePathMap, m0: RulePathMap, language: Language, done: seq<Path>, entry: Path, name: EngineName)
    requires AddedExactly(owner, m, m0, language, done)
    requires owner(entry) == Some(name)
    ensures AddedExactly(owner, m, AddEntry(m0, name, language, entry), language, done + [entry])
  {
    AddEntryPaths(owner, m, m0, language, done, entry, name);
    AddEntryEngines(owner, m, m0, language, done, entry, name);
    AddEntryLanguages(owner, m, m0, language, done, entry, name);
  }

  lemma AddEntryPaths(owner: Path -> Option<EngineName>, m: RulePathMap, m0: RulePathMap, language: Language, done: seq<Path>, entry: Path, name: EngineName)
    requires PathsAdded(owner, m, m0, language, done)
    requires owner(entry) == Some(name)
    ensures PathsAdded(owner, m, AddEntry(m0, name, language, entry), language, done + [entry])
  {
    assert forall x :: x in done + [entry] <==> x in done || x == entry;
  }

  lemma AddEntryEngines(owner: Path -> Option<EngineName>, m: RulePathMap, m0: RulePathMap, language: Language, done: seq<Path>, entry: Path, name: EngineName)
    requires EnginesAdded(owner, m, m0, done)
    requires owner(entry) == Some(name)
    ensures EnginesAdded(owner, m, AddEntry(m0, name, language, entry), done + [entry])
  {
    var m1 := AddEntry(m0, name, language, entry);
    forall e ensures e in m1 <==> e in m || SomeEntryFor(owner, done + [entry], e) {
      SomeEntrySnoc(owner, done, entry, e);
    }
  }

  lemma AddEntryLanguages(owner: Path -> Option<EngineName>, m: RulePathMap, m0: RulePathMap, language: Language, done: seq<Path>, entry: Path, name: EngineName)
    requires EnginesAdded(owner, m, m0, done)
    requires LanguagesAdded(owner, m, m0, language, done)
    requires owner(entry) == Some(name)
    ensures LanguagesAdded(owner, m, AddEntry(m0, name, language, entry), language, done + [entry])
  {
    var m1 := AddEntry(m0, name, language, entry);
    forall e | e in m1
      ensures m1[e].Keys == (if e in m then m[e].Keys else {}) + (if SomeEntryFor(owner, done + [entry], e) then {language} else {})
    {
      SomeEntrySnoc(owner, done, entry, e);
      if e != name {
        assert SomeEntryFor(owner, done + [entry], e) == SomeEntryFor(owner, done, e);
        assert e in m0 && m1[e] == m0[e];
      }
    }
  }

  // ---------------------------------------------------------------------------------------
  // Querying

  /** `p` is registered under some language of its own engine. */
  predicate IsRegistered(env: Env, m: RulePathMap, p: Path)
  {
    match EngineNameFor(env, p)
    case None => false
    case Some(e) => e in m && exists l :: l in m[e] && p in m[e][l]
  }

  /** Keeps, in order, the candidates registered under some language of their own engine. A
      candidate without an engine is an error. */
  function FilterRegistered(env: Env, m: RulePathMap, candidates: seq<Path>): (r: Result<seq<Path>, PathError>)
    ensures r.Failure? <==> exists p :: p in candidates && EngineNameFor(env, p).None?
    ensures r.Failure? ==> r.error.NoEngineForPath? && r.error.path in candidates && EngineNameFor(env, r.error.path).None?
    ensures r.Success? ==> IsSubsequence(r.value, candidates)
    ensures r.Success? ==> forall p :: p in r.value <==> p in candidates && IsRegistered(env, m, p)
    ensures r.Success? ==> r.value == Filter(p => IsRegistered(env, m, p), candidates)
  {
    if |candidates| == 0 then Success([])
    else
      var p := candidates[0];
      assert forall x :: x in candidates <==> x == p || x in candidates[1..];
      if EngineNameFor(env, p).None? then Failure(NoEngineForPath(p))
      else
        match FilterRegistered(env, m, candidates[1..])
        case Failure(e) => Failure(e)
        case Success(rest) =>
          if IsRegistered(env, m, p) then
            assert ([p] + rest)[1..] == rest;
            Success([p] + rest)
          else
            SkipHeadKeepsSubsequence(rest, p, candidates[1..]);
            assert [p] + candidates[1..] == candidates;
            Success(rest)
  }

  /** The expanded arguments that are registered under some language of their own engine, in
      order. */
  function GetMatchingPaths(env: Env, m: RulePathMap, paths: seq<Path>): (r: Result<seq<Path>, PathError>)
    ensures ExpandPaths(env.fs, paths).Failure? ==> r == Failure(ExpandPaths(env.fs, paths).error)
    ensures r.Success? ==> ExpandPaths(env.fs, paths).Success?
    ensures r.Success? ==> IsSubsequence(r.value, ExpandPaths(env.fs, paths).value)
    ensures r.Success? ==>
              forall p :: p in r.value <==> p in ExpandPaths(env.fs, paths).value && IsRegistered(env, m, p)
    ensures r.Success? ==> r.value == Filter(p => IsRegistered(env, m, p), ExpandPaths(env.fs, paths).value)
  {
    match ExpandPaths(env.fs, paths)
    case Failure(e) => Failure(e)
    case Success(expanded) => FilterRegistered(env, m, expanded)
  }

  /** The paths registered for one engine, or no entries at all for an engine the registry does
      not know. */
  function GetRulePathEntries(m: RulePathMap, engine: EngineName): (r: PathsByLanguage)
    ensures engine !in m ==> r == map[]
    ensures forall l, p :: l in r && p in r[l] <==> InMap(m, engine, l, p)
    ensures forall l :: l in r <==> engine in m && l in m[engine]
  {
    if engine !in m then map[] else m[engine]
  }

  /** The paths registered under any language of an engine. */
  function UnionOfLanguages(byLanguage: PathsByLanguage): (r: set<Path>)
    ensures forall p :: p in r <==> exists l :: l in byLanguage && p in byLanguage[l]
  {
    set l, p | l in byLanguage && p in byLanguage[l] :: p
  }

  /** Every path registered for an enabled engine, without duplicates. Engines that are not
      enabled are left out. */
  method GetAllPaths(env: Env, m: RulePathMap) returns (r: seq<Path>)
    ensures NoDuplicates(r)
    ensures forall p :: p in r <==>
              exists i, l :: 0 <= i < |env.engines| && InMap(m, env.engines[i].name, l, p)
  {
    var all: set<Path> := {};
    var i := 0;
    while i < |env.engines|
      invariant i <= |env.engines|
      invariant forall p :: p in all <==> exists k, l :: 0 <= k < i && InMap(m, env.engines[k].name, l, p)
    {
      var name := env.engines[i].name;
      ghost var before := all;
      if name in m {
        all := all + UnionOfLanguages(m[name]);
      }
      forall p | exists k, l :: 0 <= k < i + 1 && InMap(m, env.engines[k].name, l, p)
        ensures p in all
      {
        var k, l :| 0 <= k < i + 1 && InMap(m, env.engines[k].name, l, p);
        if k == i {
          assert p in UnionOfLanguages(m[name]);
        }
      }
      forall p | p in all && p !in before
        ensures exists k, l :: 0 <= k < i + 1 && InMap(m, env.engines[k].name, l, p)
      {
        var l :| l in m[name] && p in m[name][l];
        assert InMap(m, env.engines[i].name, l, p);
      }
      i := i + 1;
    }
    r := SetToSeq(all);
  }

  /** The elements of a set, each once, in some order. */
  method SetToSeq<T>(s: set<T>) returns (r: seq<T>)
    ensures NoDuplicates(r)
    ensures forall x :: x in r <==> x in s
  {
    r := [];
    var remaining := s;
    while remaining != {}
      invariant remaining <= s
      invariant NoDuplicates(r)
      invariant forall x :: x in r <==> x in s && x !in remaining
      decreases remaining
    {
      var x :| x in remaining;
      r := r + [x];
      remaining := remaining - {x};
    }
  }

  // ---------------------------------------------------------------------------------------
  // Removing paths

  /** The languages of one engine under which `p` is registered. */
  function LangsWith(byLanguage: PathsByLanguage, p: Path): set<Language>
  {
    set l | l in byLanguage && p in byLanguage[l]
  }

  /** How many times removing `p` from `m` deletes it: once per language of its engine that
      has it. */
  function Deletions(owner: Path -> Option<EngineName>, m: RulePathMap, p: Path): nat
  {
    match owner(p)
    case None => 0
    case Some(e) => if e in m then |LangsWith(m[e], p)| else 0
  }

  /** Deletes `p` from every language of one engine; counts the languages that had it. */
  method DeleteFromEveryLanguage(byLanguage: PathsByLanguage, p: Path) returns (after: PathsByLanguage, deleted: nat)
    ensures after.Keys == byLanguage.Keys
    ensures forall l :: l in after ==> after[l] == byLanguage[l] - {p}
    ensures deleted == |LangsWith(byLanguage, p)|
  {
    after := byLanguage;
    deleted := 0;
    var remaining := byLanguage.Keys;
    ghost var hit: set<Language> := {};
    while remaining != {}
      invariant remaining <= byLanguage.Keys
      invariant after.Keys == byLanguage.Keys
      invariant forall l :: l in remaining ==> after[l] == byLanguage[l]
      invariant forall l :: l in after && l !in remaining ==> after[l] == byLanguage[l] - {p}
      invariant hit == LangsWith(byLanguage, p) - remaining
      invariant deleted == |hit|
      decreases remaining
    {
      var l :| l in remaining;
      if p in after[l] {
        after := after[l := after[l] - {p}];
        deleted := deleted + 1;
        hit := hit + {l};
      }
      remaining := remaining - {l};
    }
  }

  /** `m'` is `m` with every path of `removed` deleted from every language of its own engine,
      and nothing else changed; no engine or language entry disappears. */
  ghost predicate RemovedExactly(owner: Path -> Option<EngineName>, m: RulePathMap, m': RulePathMap, removed: seq<Path>)
  {
    && m'.Keys == m.Keys
    && (forall e :: e in m ==> m'[e].Keys == m[e].Keys)
    && (forall e, l, p :: InMap(m', e, l, p) <==>
          InMap(m, e, l, p) && !(p in removed && owner(p) == Some(e)))
  }

  /** `deleted` lists each path of `removed` once per deletion it caused, and nothing else. */
  ghost predicate CountsDeletions(owner: Path -> Option<EngineName>, m: RulePathMap, deleted: seq<Path>, removed: seq<Path>)
  {
    forall p :: multiset(deleted)[p] == if p in removed then Deletions(owner, m, p) else 0
  }

  /** The deletions that removing `removed` in order reports: each path once per language of
      its engine that held it, at its first removal, in removal order. */
  function DeletedList(owner: Path -> Option<EngineName>, m: RulePathMap, removed: seq<Path>): seq<Path>
    decreases |removed|
  {
    if |removed| == 0 then []
    else
      var prefix := removed[..|removed| - 1];
      var last := removed[|removed| - 1];
      DeletedList(owner, m, prefix) + Repeat(last, if last in prefix then 0 else Deletions(owner, m, last))
  }

  /** Removing one more entry appends that entry's deletions to the list. */
  lemma DeletedListSnoc(owner: Path -> Option<EngineName>, m: RulePathMap, entries: seq<Path>, i: nat)
    requires i < |entries|
    ensures DeletedList(owner, m, entries[..i + 1]) ==
              DeletedList(owner, m, entries[..i]) +
              Repeat(entries[i], if entries[i] in entries[..i] then 0 else Deletions(owner, m, entries[i]))
  {
    assert entries[..i + 1][..i] == entries[..i];
    assert entries[..i + 1][i] == entries[i];
  }

  /** Expands the arguments and deletes each resulting path from every language of its engine.
      The result lists a path once for every deletion that happened, so a path appears once per
      language it was removed from. When some entry has no engine, the entries before it have
      already been removed. */
  method RemovePaths(env: Env, m: RulePathMap, paths: seq<Path>)
    returns (m': RulePathMap, r: Result<seq<Path>, PathError>)
    ensures ExpandPaths(env.fs, paths).Failure? ==>
              m' == m && r == Failure(ExpandPaths(env.fs, paths).error)
    ensures forall e, l, p :: InMap(m', e, l, p) ==> InMap(m, e, l, p)
    ensures m'.Keys == m.Keys && forall e :: e in m ==> m'[e].Keys == m[e].Keys
    ensures r.Success? ==>
              && (forall p :: p in r.value ==> p in ExpandPaths(env.fs, paths).value)
              && (forall p :: p in ExpandPaths(env.fs, paths).value ==> EngineNameFor(env, p).Some?)
              && RemovedExactly(Owner(env), m, m', ExpandPaths(env.fs, paths).value)
              && CountsDeletions(Owner(env), m, r.value, ExpandPaths(env.fs, paths).value)
              && r.value == DeletedList(Owner(env), m, ExpandPaths(env.fs, paths).value)
    ensures r.Failure? && ExpandPaths(env.fs, paths).Success? ==>
              && r.error.NoEngineForPath?
              && r.error.path in ExpandPaths(env.fs, paths).value
              && EngineNameFor(env, r.error.path).None?
              && exists n ::
                   && StoppedAt(Owner(env), ExpandPaths(env.fs, paths).value, n, r.error.path)
                   && RemovedExactly(Owner(env), m, m', ExpandPaths(env.fs, paths).value[..n])
  {
    var expanded := ExpandPaths(env.fs, paths);
    if expanded.Failure? {
      return m, Failure(expanded.error);
    }
    m', r := RemoveEntries(env, m, expanded.value);
  }

  /** Removes each entry in turn from every language of its engine, collecting one copy of the
      entry per deletion, and stops at the first entry without an engine. */
  method RemoveEntries(env: Env, m: RulePathMap, entries: seq<Path>)
    returns (m': RulePathMap, r: Result<seq<Path>, PathError>)
    ensures forall e, l, p :: InMap(m', e, l, p) ==> InMap(m, e, l, p)
    ensures m'.Keys == m.Keys && forall e :: e in m ==> m'[e].Keys == m[e].Keys
    ensures r.Success? ==>
              && (forall p :: p in r.value ==> p in entries)
              && (forall p :: p in entries ==> EngineNameFor(env, p).Some?)
              && RemovedExactly(Owner(env), m, m', entries)
              && CountsDeletions(Owner(env), m, r.value, entries)
              && r.value == DeletedList(Owner(env), m, entries)
    ensures r.Failure? ==>
              && r.error.NoEngineForPath?
              && r.error.path in entries
              && EngineNameFor(env, r.error.path).None?
              && exists n :: StoppedAt(Owner(env), entries, n, r.error.path) && RemovedExactly(Owner(env), m, m', entries[..n])
  {
    m' := m;
    var deletedPaths: seq<Path> := [];
    var i := 0;
    while i < |entries|
      invariant i <= |entries|
      invariant forall x :: x in entries[..i] ==> Owner(env)(x).Some?
      invariant RemovedExactly(Owner(env), m, m', entries[..i])
      invariant deletedPaths == DeletedList(Owner(env), m, entries[..i])
    {
      var p := entries[i];
      var engine := DetermineEngineForPath(env, p);
      if engine.None? {
        assert EngineNameFor(env, p).None?;
        RemoveStoppedAt(Owner(env), m, m', entries, i);
        RemovedOnlyShrinks(Owner(env), m, m', entries[..i]);
        return m', Failure(NoEngineForPath(p));
      }
      OwnedSnoc(Owner(env), entries, i);
      m', deletedPaths := RemoveStep(Owner(env), m, m', deletedPaths, entries, i, engine.value.name);
      i := i + 1;
    }
    assert entries[..i] == entries;
    RemovedOnlyShrinks(Owner(env), m, m', entries);
    DeletedListCounts(Owner(env), m, entries);
    DeletedAreRemoved(Owner(env), m, deletedPaths, entries);
    r := Success(deletedPaths);
  }

  /** An owned prefix followed by an owned entry is an owned prefix. */
  lemma OwnedSnoc(owner: Path -> Option<EngineName>, entries: seq<Path>, i: nat)
    requires i < |entries|
    requires forall x :: x in entries[..i] ==> owner(x).Some?
    requires owner(entries[i]).Some?
    ensures forall x :: x in entries[..i + 1] ==> owner(x).Some?
  {
    assert entries[..i + 1] == entries[..i] + [entries[i]];
  }

  /** Removes entry `i`, keeping the removal exact, and reports its deletions. */
  method RemoveStep(owner: Path -> Option<EngineName>, m: RulePathMap, m0: RulePathMap, deleted: seq<Path>, entries: seq<Path>, i: nat, name: EngineName)
    returns (m1: RulePathMap, deleted1: seq<Path>)
    requires i < |entries|
    requires RemovedExactly(owner, m, m0, entries[..i])
    requires owner(entries[i]) == Some(name)
    requires deleted == DeletedList(owner, m, entries[..i])
    ensures RemovedExactly(owner, m, m1, entries[..i + 1])
    ensures deleted1 == DeletedList(owner, m, entries[..i + 1])
    ensures deleted1 == deleted + Repeat(entries[i], if entries[i] in entries[..i] then 0 else Deletions(owner, m, entries[i]))
  {
    var p := entries[i];
    assert entries[..i + 1] == entries[..i] + [p];
    var n;
    m1, n := RemoveFromEngine(owner, m, m0, entries[..i], p, name);
    deleted1 := deleted + Repeat(p, n);
    DeletedListSnoc(owner, m, entries, i);
  }

  /** The ordered deletion list holds each removed path once per deletion it caused. */
  lemma {:induction false} DeletedListCounts(owner: Path -> Option<EngineName>, m: RulePathMap, removed: seq<Path>)
    ensures CountsDeletions(owner, m, DeletedList(owner, m, removed), removed)
    decreases |removed|
  {
    if |removed| > 0 {
      var prefix := removed[..|removed| - 1];
      var last := removed[|removed| - 1];
      DeletedListCounts(owner, m, prefix);
      CountsDeletionsSnoc(owner, m, DeletedList(owner, m, prefix), prefix, last,
                          if last in prefix then 0 else Deletions(owner, m, last));
      assert prefix + [last] == removed;
    }
  }

  /** Every path in a counted deletion list is one of the removed paths. */
  lemma DeletedAreRemoved(owner: Path -> Option<EngineName>, m: RulePathMap, deleted: seq<Path>, removed: seq<Path>)
    requires CountsDeletions(owner, m, deleted, removed)
    ensures forall p :: p in deleted ==> p in removed
  {
    assert forall q :: q in deleted ==> multiset(deleted)[q] > 0;
  }

  /** A remove that meets entry `i` without an engine stops there, with the entries before it removed. */
  lemma RemoveStoppedAt(owner: Path -> Option<EngineName>, m: RulePathMap, m': RulePathMap, entries: seq<Path>, i: int)
    requires 0 <= i < |entries|
    requires forall x :: x in entries[..i] ==> owner(x).Some?
    requires RemovedExactly(owner, m, m', entries[..i])
    ensures exists n :: StoppedAt(owner, entries, n, entries[i]) && RemovedExactly(owner, m, m', entries[..n])
  {
    assert forall j :: 0 <= j < i ==> entries[j] in entries[..i];
  }

  lemma RemovedOnlyShrinks(owner: Path -> Option<EngineName>, m: RulePathMap, m': RulePathMap, removed: seq<Path>)
    requires RemovedExactly(owner, m, m', removed)
    ensures forall e, l, p :: InMap(m', e, l, p) ==> InMap(m, e, l, p)
  {
  }

  /** Removes `p` from every language of its engine `name`, counting the deletions. */
  method RemoveFromEngine(owner: Path -> Option<EngineName>, m: RulePathMap, m0: RulePathMap, done: seq<Path>, p: Path, name: EngineName)
    returns (m1: RulePathMap, n: nat)
    requires RemovedExactly(owner, m, m0, done)
    requires owner(p) == Some(name)
    ensures RemovedExactly(owner, m, m1, done + [p])
    ensures n == if p in done then 0 else Deletions(owner, m, p)
  {
    assert forall x :: x in done + [p] <==> x in done || x == p;
    if name in m0 {
      var after;
      after, n := DeleteFromEveryLanguage(m0[name], p);
      DeletionCount(owner, m, m0, done, p, name);
      m1 := m0[name := after];
    } else {
      m1, n := m0, 0;
    }
  }

  /** Appending the deletions of one more path keeps the count exact. */
  lemma CountsDeletionsSnoc(owner: Path -> Option<EngineName>, m: RulePathMap, deleted: seq<Path>, done: seq<Path>, p: Path, n: nat)
    requires CountsDeletions(owner, m, deleted, done)
    requires n == if p in done then 0 else Deletions(owner, m, p)
    ensures CountsDeletions(owner, m, deleted + Repeat(p, n), done + [p])
  {
    forall q ensures multiset(deleted + Repeat(p, n))[q] == if q in done + [p] then Deletions(owner, m, q) else 0 {
      assert q in done + [p] <==> q in done || q == p;
    }
  }

  /** While removing `p`, the languages of its engine that still hold it are all of those that
      held it at the start, unless `p` was removed already. */
  lemma DeletionCount(owner: Path -> Option<EngineName>, m: RulePathMap, m': RulePathMap, done: seq<Path>, p: Path, name: EngineName)
    requires RemovedExactly(owner, m, m', done)
    requires owner(p) == Some(name) && name in m'
    ensures |LangsWith(m'[name], p)| == if p in done then 0 else Deletions(owner, m, p)
  {
    if p in done {
      assert LangsWith(m'[name], p) == {} by {
        forall l | l in m'[name] ensures p !in m'[name][l] {
          assert !InMap(m', name, l, p);
        }
      }
    } else {
      assert LangsWith(m'[name], p) == LangsWith(m[name], p) by {
        forall l ensures l in LangsWith(m'[name], p) <==> l in LangsWith(m[name], p) {
          assert InMap(m', name, l, p) <==> InMap(m, name, l, p);
        }
      }
    }
  }

  // ---------------------------------------------------------------------------------------
  // Adding, querying and removing together

  lemma {:induction false} FilterRegisteredKeepsAll(env: Env, m: RulePathMap, candidates: seq<Path>)
    requires forall p :: p in candidates ==> IsRegistered(env, m, p)
    ensures FilterRegistered(env, m, candidates) == Success(candidates)
  {
    if |candidates| > 0 {
      assert forall x :: x in candidates[1..] ==> x in candidates;
      FilterRegisteredKeepsAll(env, m, candidates[1..]);
      assert [candidates[0]] + candidates[1..] == candidates;
    }
  }

  /** Once paths have been added, querying the same arguments finds every one of them. */
  lemma AddedPathsMatch(env: Env, m: RulePathMap, m': RulePathMap, language: Language, paths: seq<Path>)
    requires ExpandPaths(env.fs, paths).Success?
    requires forall x :: x in ExpandPaths(env.fs, paths).value ==> EngineNameFor(env, x).Some?
    requires AddedExactly(Owner(env), m, m', language, ExpandPaths(env.fs, paths).value)
    ensures GetMatchingPaths(env, m', paths) == ExpandPaths(env.fs, paths)
  {
    var expanded := ExpandPaths(env.fs, paths).value;
    forall x | x in expanded ensures IsRegistered(env, m', x) {
      var e := EngineNameFor(env, x).value;
      assert Owner(env)(x) == Some(e);
      assert InMap(m', e, language, x);
    }
    FilterRegisteredKeepsAll(env, m', expanded);
  }

  lemma {:induction false} FilterRegisteredDropsAll(env: Env, m: RulePathMap, candidates: seq<Path>)
    requires forall p :: p in candidates ==> EngineNameFor(env, p).Some? && !IsRegistered(env, m, p)
    ensures FilterRegistered(env, m, candidates) == Success([])
  {
    if |candidates| > 0 {
      assert forall x :: x in candidates[1..] ==> x in candidates;
      FilterRegisteredDropsAll(env, m, candidates[1..]);
    }
  }

  /** Once paths have been removed, querying the same arguments finds none of them. */
  lemma RemovedPathsDoNotMatch(env: Env, m: RulePathMap, m': RulePathMap, paths: seq<Path>)
    requires ExpandPaths(env.fs, paths).Success?
    requires forall x :: x in ExpandPaths(env.fs, paths).value ==> EngineNameFor(env, x).Some?
    requires RemovedExactly(Owner(env), m, m', ExpandPaths(env.fs, paths).value)
    ensures GetMatchingPaths(env, m', paths) == Success([])
  {
    var expanded := ExpandPaths(env.fs, paths).value;
    forall x | x in expanded ensures !IsRegistered(env, m', x) {
      var e := EngineNameFor(env, x).value;
      assert Owner(env)(x) == Some(e);
      forall l ensures !(e in m' && l in m'[e] && x in m'[e][l]) {
        assert InMap(m', e, l, x) ==> !(x in expanded && Owner(env)(x) == Some(e));
      }
    }
    FilterRegisteredDropsAll(env, m', expanded);
  }

  // ---------------------------------------------------------------------------------------
  // Persisted form

  /** Reads the persisted form: each array becomes a set. */
  function ConvertJsonDataToMap(json: RulePathJson): (m: RulePathMap)
    ensures m.Keys == json.Keys
    ensures forall e :: e in m ==> m[e].Keys == json[e].Keys
    ensures forall e, l, p :: InMap(m, e, l, p) <==> e in json && l in json[e] && p in json[e][l]
  {
    map e | e in json :: map l | l in json[e] :: ToSet(json[e][l])
  }

  /** Builds the persisted form: each set becomes an array listing its paths once. Reading it
      back gives the same registry. */
  method ConvertMapToJson(m: RulePathMap) returns (json: RulePathJson)
    ensures json.Keys == m.Keys
    ensures forall e :: e in json ==> json[e].Keys == m[e].Keys
    ensures forall e, l :: e in json && l in json[e] ==> NoDuplicates(json[e][l])
    ensures ConvertJsonDataToMap(json) == m
  {
    json := map[];
    var remaining := m.Keys;
    while remaining != {}
      invariant remaining <= m.Keys
      invariant json.Keys == m.Keys - remaining
      invariant forall e :: e in json ==> json[e].Keys == m[e].Keys
      invariant forall e, l :: e in json && l in json[e] ==>
                  NoDuplicates(json[e][l]) && ToSet(json[e][l]) == m[e][l]
      decreases remaining
    {
      var e :| e in remaining;
      var inner := LanguagesToJson(m[e]);
      json := json[e := inner];
      remaining := remaining - {e};
    }
    var back := ConvertJsonDataToMap(json);
    assert back.Keys == m.Keys;
    forall e | e in m ensures back[e] == m[e] {
      assert back[e].Keys == m[e].Keys;
    }
  }

  method LanguagesToJson(byLanguage: PathsByLanguage) returns (obj: map<Language, seq<Path>>)
    ensures obj.Keys == byLanguage.Keys
    ensures forall l :: l in obj ==> NoDuplicates(obj[l]) && ToSet(obj[l]) == byLanguage[l]
  {
    obj := map[];
    var remaining := byLanguage.Keys;
    while remaining != {}
      invariant remaining <= byLanguage.Keys
      invariant obj.Keys == byLanguage.Keys - remaining
      invariant forall l :: l in obj ==> NoDuplicates(obj[l]) && ToSet(obj[l]) == byLanguage[l]
      decreases remaining
    {
      var l :| l in remaining;
      var paths := SetToSeq(byLanguage[l]);
      obj := obj[l := paths];
      remaining := remaining - {l};
    }
  }
}

=== FILE: field_set_members.dfy ===
/** The symbolic value for a member of a schema field set (`Schema.FieldSetMember`): how method
    calls on it resolve, how it is cloned, and when two members are equal. Symbolic values are a
    closed set of tagged variants; each value records the value and invocation that produced it. */
module FieldSetMembers {
  import opened Wrappers
  import opened Text
  import opened Vertices

  /** The only method with a resolution rule on a field set member. */
  const METHOD_GET_S_OBJECT_FIELD: string := "getSObjectField"

  /** Java's `int` range, in which hash codes are computed. */
  const INT_MIN: int := -0x8000_0000
  const INT_MODULUS: int := 0x1_0000_0000

  /** A schema object type such as `Account`. */
  datatype SObjectType = SObjectType(name: string)

  /** A field set; its object type may be unknown. */
  datatype FieldSet = FieldSet(id: nat, sObjectType: Option<SObjectType>)

  /** The state a standard value inherits from its superclass besides its provenance
      (declaration, nullness and the like), left abstract. */
  datatype StandardState = StandardState(key: nat)

  /** Where a value came from: the value a method was called on, and the invoking vertex.
      Both are missing for a value that was not returned by a call. */
  datatype Provenance = Provenance(returnedFrom: Option<ApexValue>, invocable: Option<InvocableVertex>)

  /** A field set member: its field set, its inherited state and its provenance. */
  datatype FieldSetMember = FieldSetMember(fieldSet: FieldSet, state: StandardState, provenance: Provenance)

  /** The symbolic values this model distinguishes. A string whose `text` is None is
      indeterminate: its content is unknown. */
  datatype ApexValue =
    | FieldSetMemberValue(member: FieldSetMember)
    | StringValue(text: Option<string>, prov: Provenance)
    | SObjectFieldValue(objectType: SObjectType, fieldName: ApexValue, prov: Provenance)
    | OtherValue(typeName: string, prov: Provenance)
  {
    /** The provenance the value records. */
    function Origin(): Provenance
    {
      if FieldSetMemberValue? then member.provenance else prov
    }
  }

  /** What a value builder is primed with before it builds a returned value. */
  datatype Builder = Builder(returnedFrom: Option<ApexValue>, invocable: Option<InvocableVertex>, methodVertex: Option<MethodVertex>)
  {
    /** The provenance every value built by this builder records. */
    function Prov(): Provenance
    {
      Provenance(returnedFrom, invocable)
    }
  }

  /** Raised when `Optional.get` is called on an absent object type. */
  datatype ValueError = NoSuchElement

  /** Resolves a call by name. Only `getSObjectField`, in any letter case, has a rule: it yields
      a field of the field set's object type whose name is an indeterminate string; the field
      set must know its object type. Every other name has no rule. */
  function ApplyMethod(m: FieldSetMember, b: Builder, methodName: string): (r: Result<Option<ApexValue>, ValueError>)
    ensures r.Failure? <==> EqualsIgnoreCase(methodName, METHOD_GET_S_OBJECT_FIELD) && m.fieldSet.sObjectType.None?
    ensures r.Success? && r.value.None? <==> !EqualsIgnoreCase(methodName, METHOD_GET_S_OBJECT_FIELD)
    ensures r.Success? && r.value.Some? ==> IndeterminateFieldOf(r.value.value, m.fieldSet, b.Prov())
  {
    if EqualsIgnoreCase(methodName, METHOD_GET_S_OBJECT_FIELD) then
      // The field name is not known: build an indeterminate string.
      var fieldName := StringValue(None, b.Prov());
      match m.fieldSet.sObjectType
      case None => Failure(NoSuchElement)
      case Some(t) => Success(Some(SObjectFieldValue(t, fieldName, b.Prov())))
    else
      Success(None)
  }

  /** A field value of the field set's object type whose name is an indeterminate string, both
      recording provenance `p`. */
  predicate IndeterminateFieldOf(v: ApexValue, fs: FieldSet, p: Provenance)
  {
    && v.SObjectFieldValue?
    && fs.sObjectType == Some(v.objectType)
    && v.fieldName == StringValue(None, p)
    && v.prov == p
  }

  /** The builder a call on `m` from `invocable` primes. */
  function BuilderFor(m: FieldSetMember, invocable: InvocableVertex, methodVertex: Option<MethodVertex>): Builder
  {
    Builder(Some(FieldSetMemberValue(m)), Some(invocable), methodVertex)
  }

  /** Resolves a method call expression on the member by the called method's name. */
  function Apply(m: FieldSetMember, call: MethodCallVertex): (r: Result<Option<ApexValue>, ValueError>)
    ensures r.Success? && r.value.Some? ==>
              && r.value.value.Origin().returnedFrom == Some(FieldSetMemberValue(m))
              && r.value.value.Origin().invocable == Some(call)
    ensures r.Success? && r.value.Some? <==>
              EqualsIgnoreCase(call.methodName, METHOD_GET_S_OBJECT_FIELD) && m.fieldSet.sObjectType.Some?
  {
    ApplyMethod(m, BuilderFor(m, call, None), call.methodName)
  }

  /** Executes a resolved method on the member. A matching rule's value wins; only when no rule
      matches is a value synthesised from the method's declared return type, by `synthesize`. */
  function ExecuteMethod(
    m: FieldSetMember,
    invocable: InvocableVertex,
    callee: MethodVertex,
    synthesize: (Builder, MethodVertex) -> Option<ApexValue>)
    : (r: Result<Option<ApexValue>, ValueError>)
    ensures EqualsIgnoreCase(callee.name, METHOD_GET_S_OBJECT_FIELD) ==>
              r == ApplyMethod(m, BuilderFor(m, invocable, Some(callee)), callee.name)
    ensures !EqualsIgnoreCase(callee.name, METHOD_GET_S_OBJECT_FIELD) ==>
              r == Success(synthesize(BuilderFor(m, invocable, Some(callee)), callee))
  {
    var b := BuilderFor(m, invocable, Some(callee));
    match ApplyMethod(m, b, callee.name)
    case Failure(e) => Failure(e)
    case Success(Some(v)) => Success(Some(v))
    case Success(None) => Success(synthesize(b, callee))
  }

  /** Resolution ignores letter case: two names that agree ignoring case resolve alike. */
  lemma ResolutionIgnoresCase(m: FieldSetMember, b: Builder, name1: string, name2: string)
    requires EqualsIgnoreCase(name1, name2)
    ensures ApplyMethod(m, b, name1) == ApplyMethod(m, b, name2)
  {
  }

  /** For instance, the upper-case spelling resolves to an indeterminate field. */
  lemma UpperCaseNameResolves(m: FieldSetMember, b: Builder)
    requires m.fieldSet.sObjectType.Some?
    ensures ApplyMethod(m, b, "GETSOBJECTFIELD").Success?
    ensures ApplyMethod(m, b, "GETSOBJECTFIELD").value.Some?
  {
    assert Lower("GETSOBJECTFIELD") == Lower(METHOD_GET_S_OBJECT_FIELD);
  }

  /** A copy that keeps the field set and the inherited state but takes the given provenance. */
  function DeepCloneForReturn(m: FieldSetMember, returnedFrom: Option<ApexValue>, invocable: Option<InvocableVertex>)
    : (c: FieldSetMember)
    ensures c.fieldSet == m.fieldSet && c.state == m.state
    ensures c.provenance == Provenance(returnedFrom, invocable)
  {
    FieldSetMember(m.fieldSet, m.state, Provenance(returnedFrom, invocable))
  }

  /** A copy that keeps the field set and the provenance: a clone for return that passes the
      member's own provenance. */
  function DeepClone(m: FieldSetMember): (c: FieldSetMember)
    ensures c.fieldSet == m.fieldSet && c.state == m.state
    ensures c.provenance == m.provenance
  {
    DeepCloneForReturn(m, m.provenance.returnedFrom, m.provenance.invocable)
  }

  /** A deep clone is indistinguishable from the original. Sibling paths each hold their own
      immutable copy, so nothing done on one path is visible on another. */
  lemma DeepCloneIsFaithful(m: FieldSetMember)
    ensures DeepClone(m) == m
  {
  }

  /** Re-cloning with the original provenance undoes a clone for return. */
  lemma CloneForReturnRoundTrip(m: FieldSetMember, returnedFrom: Option<ApexValue>, invocable: Option<InvocableVertex>)
    ensures DeepCloneForReturn(DeepCloneForReturn(m, returnedFrom, invocable),
                               m.provenance.returnedFrom, m.provenance.invocable) == m
  {
  }

  /** `equals`: the same object, or another field set member that is equal at the superclass
      level and has an equal field set. `other` is None for `null`. */
  function Equals(m: FieldSetMember, other: Option<ApexValue>, superEquals: (FieldSetMember, FieldSetMember) -> bool)
    : (r: bool)
    ensures r <==>
              other == Some(FieldSetMemberValue(m))
              || (&& other.Some? && other.value.FieldSetMemberValue?
                  && superEquals(m, other.value.member)
                  && m.fieldSet == other.value.member.fieldSet)
    ensures r ==> other.Some? && other.value.FieldSetMemberValue? && other.value.member.fieldSet == m.fieldSet
  {
    if other == Some(FieldSetMemberValue(m)) then true
    else if other.None? || !other.value.FieldSetMemberValue? then false
    else if !superEquals(m, other.value.member) then false
    else m.fieldSet == other.value.member.fieldSet
  }

  /** Reduces an integer to Java's `int` range, as 32-bit two's-complement arithmetic does. */
  function ToInt32(x: int): (r: int)
    ensures INT_MIN <= r < INT_MIN + INT_MODULUS
    ensures (r - x) % INT_MODULUS == 0
  {
    (x - INT_MIN) % INT_MODULUS + INT_MIN
  }

  /** `hashCode`: `Objects.hash(super.hashCode(), fieldSet)`, that is `31 * (31 + h1) + h2` in
      32-bit arithmetic. */
  function HashCode(m: FieldSetMember, superHash: FieldSetMember -> int, fieldSetHash: FieldSet -> int): (h: int)
    ensures INT_MIN <= h < INT_MIN + INT_MODULUS
    ensures (h - (961 + 31 * superHash(m) + fieldSetHash(m.fieldSet))) % INT_MODULUS == 0
  {
    var inner := ToInt32(31 * 1 + superHash(m));
    var outer := ToInt32(31 * inner + fieldSetHash(m.fieldSet));
    WrappedHashCongruent(superHash(m), fieldSetHash(m.fieldSet), inner, outer);
    outer
  }

  /** Wrapping the inner sum before scaling it does not change the outer result modulo 2^32. */
  lemma WrappedHashCongruent(h1: int, h2: int, inner: int, h: int)
    requires (inner - (31 + h1)) % INT_MODULUS == 0
    requires (h - (31 * inner + h2)) % INT_MODULUS == 0
    ensures (h - (961 + 31 * h1 + h2)) % INT_MODULUS == 0
  {
  }

  /** Equal members have equal hash codes, given that the superclass keeps its own hash
      consistent with its own equality. */
  lemma EqualMembersHashAlike(
    m: FieldSetMember, n: FieldSetMember,
    superEquals: (FieldSetMember, FieldSetMember) -> bool,
    superHash: FieldSetMember -> int,
    fieldSetHash: FieldSet -> int)
    requires forall x, y :: superEquals(x, y) ==> superHash(x) == superHash(y)
    requires Equals(m, Some(FieldSetMemberValue(n)), superEquals)
    ensures HashCode(m, superHash, fieldSetHash) == HashCode(n, superHash, fieldSetHash)
  {
  }
}

=== FILE: loop_boundaries.dfy ===
/** The boundary marker pushed when a path walk enters a loop: an immutable wrapper around the
    loop vertex. */
module LoopBoundaries {
  import opened Wrappers
  import opened Vertices

  const PREFIX: string := "LoopBoundary{loopVertex="
  const SUFFIX: string := "}"

  /** A loop boundary. Boundaries are compared by identity, not by content: two boundaries are
      the same exactly when they are the same object. */
  class LoopBoundary {
    const loopVertex: Vertex

    constructor (loopVertex: Vertex)
      ensures this.loopVertex == loopVertex
    {
      this.loopVertex := loopVertex;
    }
  }

  /** The wrapped vertex. */
  function GetBoundaryItem(b: LoopBoundary): Vertex
  {
    b.loopVertex
  }

  /** Constructs a boundary around `loopVertex`; its item is that vertex. */
  method NewLoopBoundary(loopVertex: Vertex) returns (b: LoopBoundary)
    ensures GetBoundaryItem(b) == loopVertex
  {
    b := new LoopBoundary(loopVertex);
  }

  /** Boundaries built separately around the same vertex are different boundaries, and each
      hands back that vertex as its item. */
  method NewBoundariesShareItem(v: Vertex) returns (b1: LoopBoundary, b2: LoopBoundary)
    ensures b1 != b2
    ensures GetBoundaryItem(b1) == v && GetBoundaryItem(b2) == v
  {
    b1 := new LoopBoundary(v);
    b2 := new LoopBoundary(v);
  }

  /** The string form, given the string form `show` of vertices. */
  function ToString(b: LoopBoundary, show: Vertex -> string): (s: string)
    ensures |s| == |PREFIX| + |show(b.loopVertex)| + |SUFFIX|
    ensures s[..|PREFIX|] == PREFIX && s[|s| - 1] == '}'
  {
    PREFIX + show(b.loopVertex) + SUFFIX
  }

  /** Reads back the vertex part of a string produced by `ToString`. */
  function ParseVertexText(s: string): (r: Option<string>)
    ensures r.Some? ==> s == PREFIX + r.value + SUFFIX
  {
    if |s| >= |PREFIX| + |SUFFIX| && s[..|PREFIX|] == PREFIX && s[|s| - |SUFFIX|..] == SUFFIX
    then
      var inner := s[|PREFIX|..|s| - |SUFFIX|];
      assert s == s[..|PREFIX|] + inner + s[|s| - |SUFFIX|..];
      Some(inner)
    else None
  }

  /** The vertex's string form can be read back from the boundary's string form. */
  lemma ToStringRoundTrip(b: LoopBoundary, show: Vertex -> string)
    ensures ParseVertexText(ToString(b, show)) == Some(show(b.loopVertex))
  {
    var s := ToString(b, show);
    assert s[|PREFIX|..|s| - |SUFFIX|] == show(b.loopVertex);
  }

  /** Two boundaries print alike exactly when their vertices print alike. */
  lemma ToStringDeterminedByVertex(b1: LoopBoundary, b2: LoopBoundary, show: Vertex -> string)
    ensures ToString(b1, show) == ToString(b2, show) <==> show(b1.loopVertex) == show(b2.loopVertex)
  {
    if ToString(b1, show) == ToString(b2, show) {
      ToStringRoundTrip(b1, show);
      ToStringRoundTrip(b2, show);
    }
  }
}

=== FILE: seqs.dfy ===
/** Sequence helpers: order-preserving filtering, sublists, duplicate-freedom, repetition. */
module Seqs {

  /** `a` can be obtained from `b` by deleting elements, keeping the order of the rest. */
  predicate IsSubsequence<T(==)>(a: seq<T>, b: seq<T>)
    decreases |b|
  {
    if |a| == 0 then true
    else if |b| == 0 then false
    else if a[0] == b[0] then IsSubsequence(a[1..], b[1..])
    else IsSubsequence(a, b[1..])
  }

  predicate NoDuplicates<T(==)>(s: seq<T>)
  {
    forall i, j :: 0 <= i < j < |s| ==> s[i] != s[j]
  }

  function ToSet<T(!new)>(s: seq<T>): (r: set<T>)
    ensures forall x :: x in r <==> x in s
  {
    set x | x in s
  }

  /** The elements of `s` satisfying `p`, in their original order. */
  function Filter<T(!new)>(p: T -> bool, s: seq<T>): seq<T>
  {
    if |s| == 0 then []
    else if p(s[0]) then [s[0]] + Filter(p, s[1..])
    else Filter(p, s[1..])
  }

  /** Filtering keeps exactly the elements that pass, and never lengthens. */
  lemma {:induction false} FilterContents<T(!new)>(p: T -> bool, s: seq<T>)
    ensures forall x :: x in Filter(p, s) <==> x in s && p(x)
    ensures |Filter(p, s)| <= |s|
    decreases |s|
  {
    if |s| > 0 {
      FilterContents(p, s[1..]);
      assert s == [s[0]] + s[1..];
    }
  }

  /** Filtering a sequence extended by one element extends the filtered sequence by that
      element exactly when it passes. */
  lemma {:induction false} FilterSnoc<T(!new)>(p: T -> bool, s: seq<T>, x: T)
    ensures Filter(p, s + [x]) == Filter(p, s) + (if p(x) then [x] else [])
    decreases |s|
  {
    if |s| == 0 {
      assert s + [x] == [x];
      assert Filter(p, [x][1..]) == [];
    } else {
      assert (s + [x])[0] == s[0];
      assert (s + [x])[1..] == s[1..] + [x];
      FilterSnoc(p, s[1..], x);
    }
  }

  /** `n` copies of `x`. */
  function Repeat<T(!new)>(x: T, n: nat): (r: seq<T>)
    ensures |r| == n
    ensures forall i :: 0 <= i < n ==> r[i] == x
    ensures multiset(r)[x] == n
    ensures forall y :: y != x ==> multiset(r)[y] == 0
  {
    if n == 0 then [] else [x] + Repeat(x, n - 1)
  }

  /** Filtering with a stronger predicate keeps a sublist of what a weaker one keeps: whatever
      passes both filters appears in the same relative order. */
  lemma {:induction false} FilterStrongerIsSubsequence<T(!new)>(p: T -> bool, q: T -> bool, s: seq<T>)
    requires forall x :: q(x) ==> p(x)
    ensures IsSubsequence(Filter(q, s), Filter(p, s))
    decreases |s|
  {
    if |s| == 0 {
    } else {
      FilterStrongerIsSubsequence(p, q, s[1..]);
      var fp, fq := Filter(p, s[1..]), Filter(q, s[1..]);
      if q(s[0]) {
        assert Filter(q, s) == [s[0]] + fq && Filter(p, s) == [s[0]] + fp;
        assert ([s[0]] + fq)[1..] == fq && ([s[0]] + fp)[1..] == fp;
      } else if p(s[0]) {
        assert Filter(p, s) == [s[0]] + fp;
        assert ([s[0]] + fp)[1..] == fp;
        SkipHeadKeepsSubsequence(fq, s[0], fp);
      }
    }
  }

  /** A sublist of `b` is also a sublist of `b` with one element put in front. */
  lemma {:induction false} SkipHeadKeepsSubsequence<T>(a: seq<T>, x: T, b: seq<T>)
    requires IsSubsequence(a, b)
    ensures IsSubsequence(a, [x] + b)
    decreases |b|, 1
  {
    assert ([x] + b)[1..] == b;
    if |a| > 0 && a[0] == x {
      SubsequenceOfTail(a, b);
    }
  }

  /** Dropping the first element of a sublist keeps it a sublist. */
  lemma {:induction false} SubsequenceOfTail<T>(a: seq<T>, b: seq<T>)
    requires |a| > 0 && IsSubsequence(a, b)
    ensures IsSubsequence(a[1..], b)
    decreases |b|, 0
  {
    assert [b[0]] + b[1..] == b;
    if a[0] != b[0] {
      SubsequenceOfTail(a, b[1..]);
    }
    SkipHeadKeepsSubsequence(a[1..], b[0], b[1..]);
  }
}

=== FILE: text.dfy ===
/** String helpers shared by the models: ASCII case folding and prefix/suffix tests. */
module Text {

  /** Lower-cases one character; only the ASCII letters A-Z are folded. */
  function LowerChar(c: char): char
  {
    if 'A' <= c <= 'Z' then (c as int + 32) as char else c
  }

  /** Lower-cases every character of `s`. */
  function Lower(s: string): string
  {
    seq(|s|, i requires 0 <= i < |s| => LowerChar(s[i]))
  }

  /** Two strings are equal ignoring case when their lower-cased forms agree. */
  predicate EqualsIgnoreCase(a: string, b: string)
  {
    Lower(a) == Lower(b)
  }

  predicate StartsWith(s: string, prefix: string)
  {
    |prefix| <= |s| && s[..|prefix|] == prefix
  }

  predicate EndsWith(s: string, suffix: string)
  {
    |suffix| <= |s| && s[|s| - |suffix|..] == suffix
  }
}

=== FILE: unused_methods.dfy ===
/** The unused-method rule: filter candidate methods for eligibility, look for a usage of each
    eligible one with a validator chosen by the method's kind, and report the methods for which
    no usage was found. The graph searches themselves are oracles. */
module UnusedMethods {
  import opened Text
  import opened Seqs
  import opened Vertices

  /** The rule's simple class name, which engine directives are matched against. */
  const RULE_NAME: string := "UnusedMethodRule"

  /** The name of a class's static initializer. */
  const CLINIT: string := "<clinit>"

  /** The three kinds of call validator, one search strategy each. */
  datatype ValidatorKind = StaticValidator | ConstructorValidator | InstanceValidator

  /** Collaborators whose code is not part of this model. */
  datatype Oracles = Oracles(
    /** The prefix of compiler-generated property getter and setter names. */
    propertyMethodPrefix: string,
    isPathEntryPoint: MethodVertex -> bool,
    isAnyDisable: Directive -> bool,
    matchesRule: (Directive, string) -> bool,
    /** Whether the validator of the given kind finds a usage of the method. */
    usageDetected: (ValidatorKind, MethodVertex) -> bool)

  /** The rule's per-run record of eligible and unused methods, in the order they were tracked. */
  datatype Tracker = Tracker(eligible: seq<MethodVertex>, unused: seq<MethodVertex>)

  /** One validator built for one candidate, with the answer of its search. */
  datatype Validation = Validation(candidate: MethodVertex, kind: ValidatorKind, usageDetected: bool)

  datatype Violation = StaticRuleViolation(message: string, vertex: MethodVertex)

  /** A directive tells this rule to skip the method. */
  predicate Disables(o: Oracles, d: Directive)
  {
    o.isAnyDisable(d) && o.matchesRule(d, RULE_NAME)
  }

  /** Some directive in `ds`, at index `k` or later, tells this rule to skip. */
  function AnyDisablesFrom(o: Oracles, ds: seq<Directive>, k: nat): (r: bool)
    requires k <= |ds|
    ensures r <==> exists i :: k <= i < |ds| && Disables(o, ds[i])
    decreases |ds| - k
  {
    if k == |ds| then false
    else if Disables(o, ds[k]) then true
    else AnyDisablesFrom(o, ds, k + 1)
  }

  /** The method carries a directive that disables this rule. */
  function DirectedToSkip(o: Oracles, m: MethodVertex): (r: bool)
    ensures r <==> exists i :: 0 <= i < |m.directives| && Disables(o, m.directives[i])
  {
    AnyDisablesFrom(o, m.directives, 0)
  }

  /** The kinds of method the rule currently analyses: static methods, private methods and
      protected constructors. */
  predicate SupportedKind(m: MethodVertex)
  {
    m.isStatic || m.isPrivate || (m.isProtected && m.isConstructor)
  }

  /** Independent statement of eligibility: every exclusion stated as a separate conjunct. */
  predicate EligibleSpec(o: Oracles, m: MethodVertex)
  {
    && SupportedKind(m)
    && !m.isTest
    && !EqualsIgnoreCase(m.name, CLINIT)
    && !DirectedToSkip(o, m)
    && !m.isAbstract
    && !(m.isConstructor && m.isPrivate && m.arity == 0)
    && !StartsWith(Lower(m.name), o.propertyMethodPrefix)
    && !o.isPathEntryPoint(m)
  }

  /** Whether the candidate is excluded from the analysis, as the rule's chain of checks
      decides it. */
  function MethodIsIneligible(o: Oracles, m: MethodVertex): (r: bool)
    ensures !SupportedKind(m) ==> r
    ensures m.isTest || m.isAbstract || EqualsIgnoreCase(m.name, CLINIT) ==> r
    ensures m.isConstructor && m.isPrivate && m.arity == 0 ==> r
    ensures StartsWith(Lower(m.name), o.propertyMethodPrefix) ==> r
    ensures DirectedToSkip(o, m) ==> r
    ensures !r <==> EligibleSpec(o, m)
  {
    if !m.isStatic && !(m.isPrivate || (m.isProtected && m.isConstructor)) then true
    else if m.isTest then true
    else if EqualsIgnoreCase(m.name, CLINIT) then true
    else if DirectedToSkip(o, m) then true
    else if m.isAbstract then true
    else if m.isConstructor && m.isPrivate && m.arity == 0 then true
    else if StartsWith(Lower(m.name), o.propertyMethodPrefix) then true
    else o.isPathEntryPoint(m)
  }

  /** A public or protected instance method that is not a constructor is never analysed. */
  lemma PublicInstanceMethodsIneligible(o: Oracles, m: MethodVertex)
    requires !m.isStatic && !m.isPrivate && !m.isConstructor
    ensures MethodIsIneligible(o, m)
  {
  }

  /** Once every earlier check passes, the entry-point test alone decides. */
  lemma EligibleIffNotEntryPoint(o: Oracles, m: MethodVertex)
    requires SupportedKind(m) && !m.isTest && !m.isAbstract
    requires !EqualsIgnoreCase(m.name, CLINIT) && !DirectedToSkip(o, m)
    requires !(m.isConstructor && m.isPrivate && m.arity == 0)
    requires !StartsWith(Lower(m.name), o.propertyMethodPrefix)
    ensures MethodIsIneligible(o, m) <==> o.isPathEntryPoint(m)
  {
  }

  /** The search strategy for a candidate: static wins over constructor, constructor wins over
      instance. */
  function ChooseValidator(m: MethodVertex): (k: ValidatorKind)
    ensures k == StaticValidator <==> m.isStatic
    ensures k == ConstructorValidator <==> !m.isStatic && m.isConstructor
    ensures k == InstanceValidator <==> !m.isStatic && !m.isConstructor
  {
    if m.isStatic then StaticValidator
    else if m.isConstructor then ConstructorValidator
    else InstanceValidator
  }

  /** Among eligible candidates, the instance search only ever runs for private methods and the
      constructor search only for private constructors with parameters or protected ones. */
  lemma ValidatorMatchesSupportedKinds(o: Oracles, m: MethodVertex)
    requires !MethodIsIneligible(o, m)
    ensures ChooseValidator(m) == InstanceValidator ==> m.isPrivate
    ensures ChooseValidator(m) == ConstructorValidator ==>
              (m.isPrivate && m.arity > 0) || m.isProtected
  {
  }

  predicate IsEligible(o: Oracles, m: MethodVertex)
  {
    !MethodIsIneligible(o, m)
  }

  /** An eligible method for which the chosen validator finds no usage. */
  predicate IsUnused(o: Oracles, m: MethodVertex)
  {
    IsEligible(o, m) && !o.usageDetected(ChooseValidator(m), m)
  }

  /** The candidates the rule tracks as eligible, in candidate order. */
  function EligibleAmong(o: Oracles, candidates: seq<MethodVertex>): seq<MethodVertex>
  {
    Filter(m => IsEligible(o, m), candidates)
  }

  /** The candidates the rule tracks as unused, in candidate order. */
  function UnusedAmong(o: Oracles, candidates: seq<MethodVertex>): seq<MethodVertex>
  {
    Filter(m => IsUnused(o, m), candidates)
  }

  /** Visit every candidate in order: skip the ineligible ones, track the eligible ones, build
      one validator for each eligible one, and track it as unused when no usage is detected. */
  method SeekMethodUsages(o: Oracles, candidates: seq<MethodVertex>, t0: Tracker)
    returns (t: Tracker, built: seq<Validation>)
    ensures t.eligible == t0.eligible + EligibleAmong(o, candidates)
    ensures t.unused == t0.unused + UnusedAmong(o, candidates)
    ensures t.eligible == t0.eligible + CandidatesOf(built)
    ensures forall v :: v in built ==> BuiltFor(o, v)
  {
    t := t0;
    built := [];
    var n := 0;
    while n < |candidates|
      invariant n <= |candidates|
      invariant t.eligible == t0.eligible + EligibleAmong(o, candidates[..n])
      invariant t.unused == t0.unused + UnusedAmong(o, candidates[..n])
      invariant t.eligible == t0.eligible + CandidatesOf(built)
      invariant forall v :: v in built ==> BuiltFor(o, v)
    {
      var m := candidates[n];
      assert candidates[..n + 1] == candidates[..n] + [m];
      AmongSnoc(o, candidates[..n], m);
      var added;
      t, added := Visit(o, t, m);
      assert CandidatesOf(built + added) == CandidatesOf(built) + CandidatesOf(added);
      built := built + added;
      n := n + 1;
    }
    assert candidates[..n] == candidates;
  }

  /** One iteration of the rule's candidate loop: the tracker after the candidate, and the
      validator built for it, if any. */
  method Visit(o: Oracles, t: Tracker, m: MethodVertex)
    returns (t': Tracker, added: seq<Validation>)
    ensures t'.eligible == t.eligible + (if IsEligible(o, m) then [m] else [])
    ensures t'.unused == t.unused + (if IsUnused(o, m) then [m] else [])
    ensures CandidatesOf(added) == (if IsEligible(o, m) then [m] else [])
    ensures forall v :: v in added ==> BuiltFor(o, v)
  {
    t', added := t, [];
    if MethodIsIneligible(o, m) {
      return;
    }
    t' := t'.(eligible := t'.eligible + [m]);
    var kind := ChooseValidator(m);
    var found := o.usageDetected(kind, m);
    added := [Validation(m, kind, found)];
    if !found {
      t' := t'.(unused := t'.unused + [m]);
    }
  }

  /** A validator is of the kind chosen for its candidate and reports what that kind's search
      finds. */
  predicate BuiltFor(o: Oracles, v: Validation)
  {
    && v.kind == ChooseValidator(v.candidate)
    && v.usageDetected == o.usageDetected(v.kind, v.candidate)
  }

  /** The candidates the validators were built for, in order. */
  function CandidatesOf(vs: seq<Validation>): (ms: seq<MethodVertex>)
    ensures |ms| == |vs|
    ensures forall i :: 0 <= i < |vs| ==> ms[i] == vs[i].candidate
  {
    seq(|vs|, i requires 0 <= i < |vs| => vs[i].candidate)
  }

  /** Extending the candidates by one extends each tracked list by at most that candidate. */
  lemma AmongSnoc(o: Oracles, s: seq<MethodVertex>, m: MethodVertex)
    ensures EligibleAmong(o, s + [m]) == EligibleAmong(o, s) + (if IsEligible(o, m) then [m] else [])
    ensures UnusedAmong(o, s + [m]) == UnusedAmong(o, s) + (if IsUnused(o, m) then [m] else [])
  {
    FilterSnoc(m => IsEligible(o, m), s, m);
    FilterSnoc(m => IsUnused(o, m), s, m);
  }

  /** The message of the violation reported for an unused method. */
  function NeverInvokedMessage(m: MethodVertex): string
  {
    "Method " + m.name + " in class " + m.definingType + " is never invoked"
  }

  /** One violation per unused method, in tracker order. */
  function ConvertMethodsToViolations(unused: seq<MethodVertex>): (vs: seq<Violation>)
    ensures |vs| == |unused|
    ensures forall i :: 0 <= i < |vs| ==>
              vs[i].vertex == unused[i] && vs[i].message == NeverInvokedMessage(unused[i])
  {
    if |unused| == 0 then []
    else [StaticRuleViolation(NeverInvokedMessage(unused[0]), unused[0])]
         + ConvertMethodsToViolations(unused[1..])
  }

  /** A run of the rule. Whatever tracker a previous run left behind is replaced by a fresh
      one, so the outcome depends only on the candidates and the oracles. */
  method Run(o: Oracles, previous: Tracker, candidates: seq<MethodVertex>)
    returns (violations: seq<Violation>, t: Tracker)
    ensures t.eligible == EligibleAmong(o, candidates)
    ensures t.unused == UnusedAmong(o, candidates)
    ensures IsSubsequence(t.unused, t.eligible)
    ensures |violations| == |t.unused|
    ensures forall i :: 0 <= i < |violations| ==>
              && violations[i].vertex == t.unused[i]
              && violations[i].message == NeverInvokedMessage(t.unused[i])
  {
    var empty := Tracker([], []);
    var built;
    t, built := SeekMethodUsages(o, candidates, empty);
    FilterStrongerIsSubsequence(m => IsEligible(o, m), m => IsUnused(o, m), candidates);
    violations := ConvertMethodsToViolations(t.unused);
  }

  /** An ineligible candidate is never reported, whatever the usage search would have said. */
  lemma IneligibleNeverReported(o: Oracles, candidates: seq<MethodVertex>, m: MethodVertex)
    requires MethodIsIneligible(o, m)
    ensures m !in EligibleAmong(o, candidates)
    ensures m !in UnusedAmong(o, candidates)
  {
    FilterContents(x => IsEligible(o, x), candidates);
    FilterContents(x => IsUnused(o, x), candidates);
  }

  /** A candidate is reported exactly when it is eligible and its validator finds no usage. */
  lemma ReportedIffEligibleAndUnused(o: Oracles, candidates: seq<MethodVertex>, m: MethodVertex)
    ensures m in UnusedAmong(o, candidates) <==>
              m in candidates && EligibleSpec(o, m) && !o.usageDetected(ChooseValidator(m), m)
  {
    FilterContents(x => IsUnused(o, x), candidates);
  }
}

=== FILE: vertices.dfy ===
/** Read-only vertices of the program graph, reduced to the attributes the rules consult. */
module Vertices {

  /** An engine directive attached to a method (an annotation-like comment that tells the
      engine to skip rules). Its meaning is decided by oracles of the rule that reads it. */
  datatype Directive = Directive(text: string)

  /** A method declaration in the graph. */
  datatype MethodVertex = MethodVertex(
    id: nat,
    name: string,
    definingType: string,
    isStatic: bool,
    isPrivate: bool,
    isProtected: bool,
    isConstructor: bool,
    isTest: bool,
    isAbstract: bool,
    arity: nat,
    directives: seq<Directive>)

  /** Any other vertex, by the kinds the core distinguishes. */
  datatype Vertex =
    | MethodCallExpression(id: nat, methodName: string)
    | OtherInvocable(id: nat, kind: string)
    | LoopStatement(id: nat, kind: string)
    | OtherVertex(id: nat, kind: string)
  {
    predicate IsInvocable()
    {
      MethodCallExpression? || OtherInvocable?
    }
  }

  /** Vertices that invoke something: method calls, `new` expressions, and the like. */
  type InvocableVertex = v: Vertex | v.IsInvocable() witness MethodCallExpression(0, "")

  /** A method call expression such as `a.b()`. */
  type MethodCallVertex = v: Vertex | v.MethodCallExpression? witness MethodCallExpression(0, "")
}

=== FILE: wrappers.dfy ===
/** Optional values and success-or-error results, used in place of null and exceptions. */
module Wrappers {

  /** A value that may be absent (a Java `null`, an empty `Optional`, a JavaScript `undefined`). */
  datatype Option<+T> = None | Some(value: T)

  /** The outcome of an operation that may fail with an error instead of a value. */
  datatype Result<+T, +E> = Success(value: T) | Failure(error: E)
}
